=== FILE: README.md ===
# Andor SDK C examples: a Dafny model of their own logic

The C examples that ship with the Andor camera SDK are mostly Win32 window code
around calls into the closed camera driver. The logic the examples decide for
themselves is modelled here and proved about:

- **Image buffers** (`Buffers`). `AllocateBuffers` frees any old block and then
  allocates X*Y pixels. `FreeBuffers` leaves the pointer NULL. Heap events are
  recorded, so the proofs can show that no block leaks over any sequence of
  allocations and frees.
- **The extremum scan of `DrawLines`** (`Display`). The scan starts from the
  sentinels 1 (maximum) and 65536 (minimum) rather than from the first pixel.
  Proved consequences:
  - a uniform image with a value in [1, 65536] is rejected as having zero range;
  - a uniform image brighter than 65536 is reported with minimum 65536;
  - a uniform image darker than 1 is reported with maximum 1;
  - an image with no pixels is accepted and painted with range 1..65536.
- **`PaintImage`** (`Paint`). It covers:
  - the bitmap width padded up to a multiple of 4;
  - nearest-neighbour sampling of the image;
  - the palette index clamped to 0..255.
- **Button handling** (`Controls`). `ProcessPushButtons` is identical in the
  image and the continuous examples. It sets and clears the `gblData` flag and
  decides whether `SetSystem` runs.
- **The image example** (`ImageWindow`). It covers:
  - the combobox texts mapped to shutter and trigger codes;
  - the driver calls `SetSystem` makes;
  - `AcquireImageData`. Its "Acquisition aborted" report can never appear: with
    `gblData` FALSE, `DrawLines` has already failed, so "Data range is zero" is
    shown instead.
- **The continuous example** (`Continuous`). It covers:
  - the ring-exposure count and the trigger and display choices;
  - the capability gate before allocation;
  - the acquisition loop `GetTheImages`, which stops after the first rejected
    frame and always aborts at the end.

  `SetSystem` frees the buffer before it returns, so the buffer pointer is NULL
  at every repaint and the logo is always drawn.
- **Start-up and shut-down in `WinMain`** (`Startup`). It covers:
  - the error flag and the error text accumulated over the checked
    initialisation calls;
  - the search for the fastest horizontal readout speed, where the first
    fastest (AD channel, speed index) pair wins;
  - the baseline clamp and the cooler, each gated on its capability bit.
- **The post-processing example** (`PostProcess`). Ten frames go into one
  buffer of ten frame slots. The write offset advances only after a successful
  fetch, so every write stays inside the buffer. The two averaging filters get
  the same input and differ only in filter and output.

The driver is a closed library. Every return code, status, capability set and
frame it hands back is an input of the model. The calls the examples make into
it are recorded as `Driver.Call` values, so contracts can state their order and
count. `DrawLines`, `AllocateBuffers` and `FreeBuffers` are the same code in
`imgwndw.c` and `continuous.c`, and one definition models both.

## Model

| member | source | states |
|---|---|---|
| Buffers.AllocateBuffers | Drivers/Examples/C/Image/imgwndw.c:735-749 | An old block is freed first. A new block is allocated exactly when malloc succeeds, and it holds exactly X*Y pixels, which is the extent DrawLines scans. The trace is exactly one Free of the old block, if there was one, then one Malloc of X*Y, if malloc succeeded. The net heap change equals the change in live blocks. |
| Buffers.FreeBuffers | Drivers/Examples/C/Image/imgwndw.c:763-770 | The pointer is NULL afterwards. A block, if there was one, is freed exactly once, and nothing is freed when the pointer was already NULL. |
| Buffers.FreeBuffersIdempotent | Drivers/Examples/C/Image/imgwndw.c:763-770 | Freeing twice is the same as freeing once; the second call frees nothing. |
| Buffers.RunOpsNoLeak | Drivers/Examples/C/Continuous/continuous.c:822-857 | Over any sequence of allocations and frees, the net number of blocks allocated equals the live blocks at the end minus those at the start. Starting from NULL, at most one block remains. |
| Display.ScanBounds | Drivers/Examples/C/Image/imgwndw.c:694-705 | The scanned maximum is at least 1 and the minimum at most 65536. Every scanned pixel lies between them. Each extreme is either its sentinel or the value of a scanned pixel. |
| Display.ScanExtremes | Drivers/Examples/C/Image/imgwndw.c:694-705 | The scan loop over the first X*Y pixels computes the fold ScanFrom, and therefore its bounds. |
| Display.DrawLines | Drivers/Examples/C/Image/imgwndw.c:690-720 | It fails and leaves both outputs untouched when there is no data or no buffer. Otherwise it succeeds exactly when the scanned maximum differs from the minimum. Only then are the outputs written: they are the extremes of the reference fold ScanFrom over the first X*Y pixels, and every pixel lies between them. |
| Display.UniformImageRejected | Drivers/Examples/C/Image/imgwndw.c:694-708 | A non-empty uniform image with a value in [1, 65536] is rejected. |
| Display.BrightImageReportsSentinelMin | Drivers/Examples/C/Image/imgwndw.c:694-715 | A uniform image above 65536 is accepted, with the image value as maximum and the sentinel 65536 as minimum. |
| Display.DarkImageReportsSentinelMax | Drivers/Examples/C/Image/imgwndw.c:694-715 | A uniform image below 1 is accepted, with the sentinel 1 as maximum and the image value as minimum. |
| Display.EmptyImagePainted | Drivers/Examples/C/Image/imgwndw.c:694-715 | With X*Y = 0, DrawLines reports success, with maximum 1 and minimum 65536. |
| Display.RepaintChoice | Drivers/Examples/C/Image/imgwndw.c:645 | Data are drawn exactly when the flag is set and a buffer exists. The logo is shown exactly when the flag is clear or the buffer is NULL. |
| Paint.PaddedWidth | Drivers/Examples/C/Image/imgwndw.c:791-793 | The padded width is the least multiple of 4 that is at least the rect width, and at most 3 larger. |
| Paint.BitmapSize | Drivers/Examples/C/Image/imgwndw.c:791-794 | For the fixed display rect, the bitmap is 272 by 272 bytes. |
| Paint.PaletteIndex | Drivers/Examples/C/Image/imgwndw.c:822-824 | The clamped index is a palette entry (0..255), and the entry nearest to the unclamped value. |
| Paint.PaletteIndexProperties | Drivers/Examples/C/Image/imgwndw.c:822-824 | The clamp keeps in-range values, is idempotent and is monotone. |
| Paint.Ceil | Drivers/Examples/C/Image/imgwndw.c:821 | The ceiling is the integer at or above its argument and less than one above it. |
| Paint.Level | Drivers/Examples/C/Image/imgwndw.c:821 | The unclamped level is the ceiling of 256*(p-min)/(max-min): for max > min it is the least r with r*(max-min) >= 256*(p-min), and the mirror bracket holds for max < min. |
| Paint.PaletteByte | Drivers/Examples/C/Image/imgwndw.c:821-825 | The byte written for a pixel is a palette index in 0..255. Its ends and its monotonicity are stated by the next two rows. |
| Paint.PaletteByteEnds | Drivers/Examples/C/Image/imgwndw.c:821-825 | A pixel at or below the minimum gets byte 0, and one at or above the maximum gets byte 255. |
| Paint.PaletteByteMonotone | Drivers/Examples/C/Image/imgwndw.c:821-825 | Brighter pixels never get a lower byte. |
| Paint.SampleColumn | Drivers/Examples/C/Image/imgwndw.c:818-820 | The sampled column (or row) is the floor of j*X/width, and it is below X for every bitmap column. |
| Paint.RowMajorInBounds | Drivers/Examples/C/Image/imgwndw.c:821 | A column below X and a row below Y give an index x + z*X below X*Y. |
| Paint.SourceIndex | Drivers/Examples/C/Image/imgwndw.c:817-821 | For every bitmap pixel, the image index read (with Start = 0) lies inside the X*Y buffer. |
| Paint.RowMajorSplit | Drivers/Examples/C/Image/imgwndw.c:825 | The bitmap index j + i*width determines its row i and column j. |
| Paint.BitmapByte | Drivers/Examples/C/Image/imgwndw.c:817-825 | The byte at every bitmap row and column is a palette index in 0..255, read from the pixel SourceIndex samples, which lies inside the X*Y buffer. |
| Paint.PaintBitmap | Drivers/Examples/C/Image/imgwndw.c:814-827 | The bitmap has width*height bytes, each a palette index. The byte at j + i*width is the clamped level of the pixel sampled for row i and column j. |
| Controls.ProcessPushButtons | Drivers/Examples/C/Image/imgwndw.c:435-475 | Start always sets the data flag, and SetSystem runs exactly when the status is idle. Abort aborts and clears the flag exactly when acquiring, and otherwise reports "System not Acquiring". Close destroys the window. The flag is cleared only by Abort while acquiring, and set only by Start. |
| ImageWindow.TtlLevel | Drivers/Examples/C/Image/imgwndw.c:336-340 | "Low" gives TTL 0 and "High" gives TTL 1. |
| ImageWindow.TriggerSource | Drivers/Examples/C/Image/imgwndw.c:350-358 | "Internal" gives trigger 0 and "External" gives trigger 1. |
| ImageWindow.OpenCloseTime | Drivers/Examples/C/Image/imgwndw.c:330-333 | A time of 0 becomes 1, and any other time is kept. |
| ImageWindow.SettingsCalls | Drivers/Examples/C/Image/imgwndw.c:310-367 | Five calls, in order: the exposure time, the timings query, the shutter (TTL, mode 0, the time as both closing and opening time), the trigger mode and the full 1x1-binned image. None of them starts or aborts an acquisition. |
| ImageWindow.SetSystem | Drivers/Examples/C/Image/imgwndw.c:302-387 | The first five calls are exactly the settings (SettingsCalls): the exposure, the timings query, the shutter with the TTL code of the text and the adjusted time, the trigger mode and the image. StartAcquisition is call 6, made exactly once. After a successful start nothing else is called (6 calls, timer started). After a failed start the only further call is AbortAcquisition (7 calls), and the data flag is cleared. The trigger notice appears exactly for "External". |
| ImageWindow.SetSystemReflectsDialog | Drivers/Examples/C/Image/imgwndw.c:335-359 | For the same time and image size, two dialog settings produce the same calls exactly when they have the same TTL text and the same trigger text. |
| ImageWindow.AcquireImageData | Drivers/Examples/C/Image/imgwndw.c:563-610 | A fresh buffer replaces the old one with no leak. A failed read reports an acquisition error and keeps the timer. The result is TRUE exactly when the read succeeded, malloc succeeded, the data flag is set and the scanned extremes of the frame differ; the report then holds those extremes, which bound every pixel, and the buffer holds the frame. A successful read that is not drawn reports "Data range is zero". "Acquisition aborted" is never reported. |
| ImageWindow.PressButton | Drivers/Examples/C/Image/imgwndw.c:435-475 | After a Start press, the data flag is set unless an idle start failed. The flag is cleared only by Abort while acquiring or by a failed start. StartAcquisition is called once exactly for Start while idle. |
| Continuous.RingExposureCount | Drivers/Examples/C/Continuous/continuous.c:363-375 | Two exposure times are used exactly when the second is not -1, and one otherwise. |
| Continuous.TriggerMode | Drivers/Examples/C/Continuous/continuous.c:406-414 | "SoftTrigger" gives mode 10, and any other text gives mode 1. |
| Continuous.DisplayImage | Drivers/Examples/C/Continuous/continuous.c:417-425 | Frames are displayed exactly for the text "Yes". |
| Continuous.AcquireImageData | Drivers/Examples/C/Continuous/continuous.c:670-697 | A failed GetNewData gives FALSE and draws nothing. With display off, a delivered frame gives TRUE without drawing. Otherwise the result is DrawLines' result. |
| Continuous.LoopPassCalls | Drivers/Examples/C/Continuous/continuous.c:501-518 | One pass sends a software trigger exactly in mode 10, reads one frame and never aborts. |
| Continuous.GetTheImages | Drivers/Examples/C/Continuous/continuous.c:496-522 | At most giNumberLoops passes are made. Every pass but the last accepted its frame, and stopping early means the last frame was rejected. The acquisition is aborted exactly once, at the end. There is one trigger per pass in mode 10, and one frame read per pass. |
| Continuous.SettingsCalls | Drivers/Examples/C/Continuous/continuous.c:375-439 | Before the gate, SetSystem sends exactly six calls, in order: the ring exposures, PrepareAcquisition, the shutter call with TTL 1, mode 1 and zero closing and opening times, the trigger mode, the full image and the timings query. None of them starts an acquisition or sends a trigger. |
| Continuous.SetSystem | Drivers/Examples/C/Continuous/continuous.c:354-494 | The ring-exposure count and the trigger mode are those mapped from the dialog (RingExposureCount, TriggerMode). The first six calls are exactly the settings (SettingsCalls), and no later call changes the trigger mode. Call 7 is the IsTriggerModeAvailable(10) query exactly when continuous mode is available. Without an allocation, there are no further calls. The buffer is allocated and the acquisition started exactly when continuous mode is available and the query succeeds. Then StartAcquisition is call 8, made once, and the last call is AbortAcquisition. The buffer is NULL again on return, with no leak. The data flag is cleared only by a failed start. |
| Continuous.StartAndRun | Drivers/Examples/C/Continuous/continuous.c:467-489 | StartAcquisition comes first and is made exactly once, and AbortAcquisition is the last call. The loop runs only after a successful start. A failed start makes exactly the calls StartAcquisition and AbortAcquisition, and clears the flag. No call changes the trigger mode. The buffer is freed at the end, with no leak. |
| Continuous.PressButton | Drivers/Examples/C/Continuous/continuous.c:539-579 | A NULL buffer stays NULL across any button press, so a repaint shows the logo. The data flag changes as in ProcessPushButtons, except that it is cleared by a failed start. |
| Startup.ErrorLine | Drivers/Examples/C/Image/common.c:123-212 | Every message a failed call appends is non-empty and ends in a newline. |
| Startup.ErrorLineSingle | Drivers/Examples/C/Image/common.c:123-212 | Every message is a single line: its only newline is its last character. |
| Startup.CheckedSteps | Drivers/Examples/C/Image/common.c:120-212 | The first ten checked calls are the unconditional ones, from Initialize to SetHSSpeed in call order. An eleventh, the baseline clamp, follows exactly when the camera offers it. |
| Startup.ErrorLinesEmpty | Drivers/Examples/C/Image/common.c:121-212 | There is no error line exactly when no checked call failed. |
| Startup.ErrorStep | Drivers/Examples/C/Image/common.c:123-126 | A failed call appends its line after the earlier ones and sets the flag. The flag is never reset. |
| Startup.ReportErrors | Drivers/Examples/C/Image/common.c:106-212 | The flag ends TRUE exactly when some checked call failed, and the text is the header followed by the failed calls' lines in call order. |
| Startup.ErrorTextOverflows | Drivers/Examples/C/Image/common.c:95-212 | When the ten unconditional calls all fail, the header and their lines make 293 characters, more than the 255 that `aBuffer[256]` holds before its NUL. |
| Startup.ErrorTextShown | Drivers/Examples/C/Image/common.c:214-215 | The text differs from the bare header exactly when some call failed. |
| Startup.SelectHorizontalSpeed | Drivers/Examples/C/Image/common.c:172-191 | If the AD-channel count query fails, or no speed exceeds 0, the choice is (0, 0). Otherwise the chosen pair exists, its speed is at least every speed, and every earlier pair is strictly slower. |
| Startup.FirstFastestUnique | Drivers/Examples/C/Image/common.c:185-189 | Only one pair is first fastest, so the choice is determined by the speed table. |
| Startup.Initialise | Drivers/Examples/C/Image/common.c:104-215 | The checked calls are the ten unconditional ones, plus the baseline clamp when the capability bits left by GetCapabilities offer it. The flag and text are as in ReportErrors. The message box is shown exactly when the text holds more than the header. A failed AD-channel count, or a table with no speed above 0, leaves (0, 0); otherwise the choice is the first fastest pair. |
| Startup.ShutDownSystem | Drivers/Examples/C/Image/common.c:254-264 | The calls are at most one CoolerOff, made exactly when temperature control is offered, and then ShutDown, made once as the last call. Each failure shows its own box. The buffer is freed with no leak. |
| PostProcess.BufferSizes | Drivers/Examples/C/PostProcessing/PostProcess32.c:39-43 | A frame has X*Y elements, and each buffer holds ten frames, so every frame slot lies inside it. |
| PostProcess.SlotFits | Drivers/Examples/C/PostProcessing/PostProcess32.c:49-55 | Slot i of size s ends at (i+1)*s, at most 10*s, for every pass i. |
| PostProcess.WriteFrame | Drivers/Examples/C/PostProcessing/PostProcess32.c:51 | A frame write fills its slot and keeps every element outside it. |
| PostProcess.ReceivedLength | Drivers/Examples/C/PostProcessing/PostProcess32.c:52-54 | The received frames occupy exactly one slot per successful fetch. |
| PostProcess.AcquireFrames | Drivers/Examples/C/PostProcessing/PostProcess32.c:44-58 | The offset starts at 0 and advances one frame per successful fetch. Every write stays in the buffer. The buffer below the final offset holds the successful frames in order, and nothing past the last written slot changes. |
| PostProcess.PostProcessFrames | Drivers/Examples/C/PostProcessing/PostProcess32.c:39-69 | Both filters read the whole input from its start, with the same size and frame count. They differ only in filter (5, then 6) and output buffer. The heap trace is exactly three allocations of the input size followed by three frees of that size. |

## Left out

- Win32 window code: window and control creation, GDI painting, palette creation, the message loop and `WndProc`. `PaintImage` is modelled only as the bitmap bytes it computes.
- The driver itself: every Andor SDK call is an input (return code, status, capability set, frame contents). The averaging filters of `PostProcessDataAveraging` are closed source.
- `RealTime32.c`: it only sets driver filter parameters and reads them back.
- The Kinetic Image and Photon Counting examples are not part of this model.
- Floating point: the intensity scaling, the sampling scales and the exposure values use exact real arithmetic. IEEE rounding is not modelled.
- Text parsing (`GetWindowText`, `atoi`, `atof`) and the formatting of status messages: the numbers and the combobox texts are inputs.
- ImageWindow.TtlLevel: the combobox text is required to be one of the offered options. For any other text, the source would pass an uninitialised `ttl`/`trig`.
- Startup.ReportErrors: the text is an unbounded string. In the source it is built with `strcat` into `char aBuffer[256]`, and when enough calls fail it runs past the end of the array; ErrorTextOverflows exhibits such a case. The overflow itself (undefined behaviour in C) is not modelled.
- Startup.Initialise: the capability bits are an input. What `GetCapabilities` leaves in `caps` when it fails is up to the driver, which is not part of this model.
- Paint.SourceIndex: X and Y are required to be at least 1. With a zero dimension, the source reads `pImageArray[0]` of an empty buffer.
- Paint.SourceIndex: `Start` is taken as 0, its value in these examples.
- The 32-bit width of X*Y, of the PostProcess buffer size (`i_size*i_NumImages*sizeof(long)`) and of the `long` differences in `PaintImage` (`maxValue - minValue` and `p - minValue`, imgwndw.c:790 and 821). The model computes all of them as unbounded integers, so it does not model their wrap-around.
- PostProcess.PostProcessFrames: malloc failure is not modelled, because the example never checks the three pointers it allocates.
- Startup.SelectHorizontalSpeed: failures of `GetNumberHSSpeeds` and `GetHSSpeed` are not modelled, because the source ignores their return codes. The speed table is the values they report.
- `InitApplication`/`InitInstance`, the `hPrevInstance` path, the 2-second busy wait after start-up and the status timer (`ProcessTimer`).
- ImageWindow.SetSystem: the status text is not modelled, apart from whether it tells the user to wait for an external trigger. The `SetExposureTime` error message is overwritten by the "Actual Exposure Time is" text before it is shown. That text, the shutter and trigger messages and the start message are concatenated and shown in the status box.
- Continuous.SetSystem: the open/close time is read but unused, and the shutter is always set with times 0, 0, which the model records.

=== FILE: buffers.dfy ===
/** The image buffer `pImageArray` and its two managers, AllocateBuffers and
    FreeBuffers (identical in the image and the continuous examples).

    The pointer is either NULL or a block of `long` pixels.  Whether malloc
    returns a block is an input, and so are the uninitialised contents of a
    fresh block.  Every free and every successful malloc is recorded as a
    `MemEvent`, so that "nothing leaks" can be stated as a balance between the
    events and the blocks the pointer holds.
 */
module Buffers {

  /** The value of `pImageArray`: NULL, or a block holding `pixels`. */
  datatype Buffer = Null | Block(pixels: seq<int>)

  /** A heap event: a block of `size` pixels allocated or released. */
  datatype MemEvent = Malloc(size: nat) | Free(size: nat)

  /** The number of blocks a buffer pointer owns. */
  function Blocks(b: Buffer): nat
  {
    if b.Block? then 1 else 0
  }

  /** The change in the number of live blocks caused by one event. */
  function Delta(e: MemEvent): int
  {
    if e.Malloc? then 1 else -1
  }

  /** The net number of blocks a trace of events leaves allocated. */
  function NetBlocks(events: seq<MemEvent>): int
  {
    if events == [] then 0 else Delta(events[0]) + NetBlocks(events[1..])
  }

  lemma {:induction false} NetBlocksAppend(a: seq<MemEvent>, b: seq<MemEvent>)
    ensures NetBlocks(a + b) == NetBlocks(a) + NetBlocks(b)
  {
    if a == [] {
      assert a + b == b;
    } else {
      assert (a + b)[1..] == a[1..] + b;
      NetBlocksAppend(a[1..], b);
    }
  }

  /** The pointer after a call and the heap events the call caused. */
  datatype Freed = Freed(buffer: Buffer, events: seq<MemEvent>)

  /** FreeBuffers: release the block, if any, and leave the pointer NULL. */
  function FreeBuffers(b: Buffer): (r: Freed)
    ensures r.buffer == Null
    ensures NetBlocks(r.events) == Blocks(r.buffer) - Blocks(b)
    ensures forall k :: 0 <= k < |r.events| ==> b.Block? && r.events[k] == Free(|b.pixels|)
    ensures |r.events| == Blocks(b)
  {
    if b.Block? then Freed(Null, [Free(|b.pixels|)]) else Freed(Null, [])
  }

  /** Calling FreeBuffers twice is the same as calling it once: the second call
      finds a NULL pointer and releases nothing. */
  lemma FreeBuffersIdempotent(b: Buffer)
    ensures FreeBuffers(FreeBuffers(b).buffer) == Freed(Null, [])
    ensures FreeBuffers(FreeBuffers(b).buffer).buffer == FreeBuffers(b).buffer
  {
  }

  /** The result of AllocateBuffers: the new pointer, the size it returns and
      the heap events, in order. */
  datatype Allocation = Allocation(buffer: Buffer, size: nat, events: seq<MemEvent>)

  /** AllocateBuffers: release the old block first, then ask malloc for a block
      of xPixels * yPixels pixels.  `mallocOk` says whether malloc returned a
      block; `uninit` gives the contents of a fresh, uninitialised block.  The
      size is returned whether or not malloc succeeded. */
  function AllocateBuffers(b: Buffer, xPixels: nat, yPixels: nat, mallocOk: bool,
                           uninit: int -> int): (r: Allocation)
    ensures r.size == xPixels * yPixels
    ensures r.buffer.Block? <==> mallocOk
    ensures r.buffer.Block? ==> |r.buffer.pixels| == r.size
    ensures b.Block? ==> |r.events| >= 1 && r.events[0] == Free(|b.pixels|)
    ensures forall k :: 0 <= k < |r.events| && r.events[k].Malloc? ==>
              k == |r.events| - 1 && r.events[k] == Malloc(r.size)
    ensures NetBlocks(r.events) == Blocks(r.buffer) - Blocks(b)
    ensures |r.events| == Blocks(b) + (if mallocOk then 1 else 0)
  {
    var freed := FreeBuffers(b);
    var size := xPixels * yPixels;
    if mallocOk then
      NetBlocksAppend(freed.events, [Malloc(size)]);
      Allocation(Block(seq(size, uninit)), size, freed.events + [Malloc(size)])
    else
      Allocation(Null, size, freed.events)
  }

  /** One call into the buffer managers. */
  datatype BufferOp =
    | Allocate(xPixels: nat, yPixels: nat, mallocOk: bool, uninit: int -> int)
    | Release

  /** The pointer after a sequence of calls and the heap events they caused. */
  datatype Heap = Heap(buffer: Buffer, events: seq<MemEvent>)

  /** One buffer-manager call. */
  function RunOp(b: Buffer, op: BufferOp): Heap
  {
    match op
    case Allocate(x, y, ok, u) =>
      var a := AllocateBuffers(b, x, y, ok, u); Heap(a.buffer, a.events)
    case Release =>
      var f := FreeBuffers(b); Heap(f.buffer, f.events)
  }

  /** Run a sequence of buffer-manager calls, collecting the heap events. */
  function RunOps(b: Buffer, ops: seq<BufferOp>): Heap
    decreases |ops|
  {
    if ops == [] then Heap(b, [])
    else
      var step := RunOp(b, ops[0]);
      var rest := RunOps(step.buffer, ops[1..]);
      Heap(rest.buffer, step.events + rest.events)
  }

  /** No leak, whatever the calls: the blocks allocated minus the blocks freed
      is exactly the change in the blocks the pointer holds.  Starting from
      NULL, at most one block is live at the end. */
  lemma {:induction false} RunOpsNoLeak(b: Buffer, ops: seq<BufferOp>)
    ensures NetBlocks(RunOps(b, ops).events) == Blocks(RunOps(b, ops).buffer) - Blocks(b)
    ensures b == Null ==> 0 <= NetBlocks(RunOps(b, ops).events) <= 1
    decreases |ops|
  {
    if ops != [] {
      var step := RunOp(b, ops[0]);
      RunOpsNoLeak(step.buffer, ops[1..]);
      NetBlocksAppend(step.events, RunOps(step.buffer, ops[1..]).events);
    }
  }
}

=== FILE: continuous.dfy ===
/** The continuous-mode example: SetSystem reads the ring exposures, the
    trigger and the display choice, allocates the buffer and starts the
    acquisition only when the hardware supports continuous mode, runs the
    acquisition loop GetTheImages to completion, and frees the buffer before
    returning.
 */
module Continuous {
  import opened Driver
  import opened Buffers
  import opened Display
  import Controls

  /** Trigger mode codes passed to SetTriggerMode. */
  const SoftwareTrigger: int := 10
  const ExternalTrigger: int := 1

  /** Number of ring exposure times: the second exposure counts unless it is -1. */
  function RingExposureCount(exposure2: real): (n: int)
    ensures n == 2 <==> exposure2 != -1.0
    ensures n == 1 <==> exposure2 == -1.0
  {
    if exposure2 != -1.0 then 2 else 1
  }

  /** Trigger mode for the trigger combobox text: "SoftTrigger" is 10, any
      other text 1. */
  function TriggerMode(text: string): (mode: int)
    ensures mode == SoftwareTrigger <==> text == "SoftTrigger"
    ensures mode == ExternalTrigger <==> text != "SoftTrigger"
  {
    if text == "SoftTrigger" then SoftwareTrigger else ExternalTrigger
  }

  /** Whether frames are displayed: only for the text "Yes". */
  function DisplayImage(text: string): (display: bool)
    ensures display <==> text == "Yes"
  {
    text == "Yes"
  }

  /** What GetNewData returns for one frame, and the pixels it writes. */
  datatype Frame = Frame(ret: Ret, pixels: seq<int>)

  /** Whether AcquireImageData accepts a frame: the driver delivered it and,
      when frames are displayed, DrawLines could paint it. */
  predicate Accepted(frame: Frame, display: bool, hasData: bool, hasBlock: bool,
                     xPixels: nat, yPixels: nat)
    requires |frame.pixels| == xPixels * yPixels
  {
    && frame.ret == Success
    && (!display
        || DrawLines(hasData, if hasBlock then Block(frame.pixels) else Null,
                     xPixels, yPixels, 0, 0).ok)
  }

  /** The outcome of AcquireImageData: its return value, the buffer after
      GetNewData wrote into it, and whether a frame was painted. */
  datatype FrameResult = FrameResult(ok: bool, buffer: Buffer, drew: bool)

  /** AcquireImageData of the continuous example. */
  function AcquireImageData(frame: Frame, display: bool, hasData: bool, buffer: Buffer,
                            xPixels: nat, yPixels: nat): (r: FrameResult)
    requires buffer.Block? ==> |buffer.pixels| == xPixels * yPixels
    requires |frame.pixels| == xPixels * yPixels
    ensures frame.ret == Failure ==> !r.ok && !r.drew && r.buffer == buffer
    ensures frame.ret == Success && !display ==> r.ok && !r.drew
    ensures r.drew ==> r.ok && display && hasData && r.buffer == Block(frame.pixels)
    ensures r.ok <==> Accepted(frame, display, hasData, buffer.Block?, xPixels, yPixels)
    ensures r.buffer.Block? == buffer.Block?
    ensures r.buffer.Block? ==> |r.buffer.pixels| == xPixels * yPixels
  {
    if frame.ret == Failure then
      FrameResult(false, buffer, false)
    else
      var written := if buffer.Block? then Block(frame.pixels) else Null;
      if !display then
        FrameResult(true, written, false)
      else
        var d := DrawLines(hasData, written, xPixels, yPixels, 0, 0);
        FrameResult(d.ok, written, d.painted)
  }

  /** The driver calls of one pass of the acquisition loop. */
  function LoopPassCalls(trigger: int, size: int): (calls: seq<Call>)
    ensures CountCalls(calls, SendSoftwareTrigger) == (if trigger == SoftwareTrigger then 1 else 0)
    ensures CountCalls(calls, GetNewData(size)) == 1
    ensures AbortAcquisition !in calls && StartAcquisition !in calls
    ensures forall k :: 0 <= k < |calls| ==> !calls[k].SetTriggerMode?
  {
    var wait := [WaitForAcquisition, GetNewData(size)];
    CountCallsAbsent(wait, SendSoftwareTrigger);
    CountCallsAbsent([WaitForAcquisition], GetNewData(size));
    CountCallsAppend([WaitForAcquisition], [GetNewData(size)], GetNewData(size));
    assert wait == [WaitForAcquisition] + [GetNewData(size)];
    if trigger == SoftwareTrigger then
      CountCallsAppend([SendSoftwareTrigger], wait, SendSoftwareTrigger);
      CountCallsAppend([SendSoftwareTrigger], wait, GetNewData(size));
      [SendSoftwareTrigger] + wait
    else
      wait
  }

  /** GetTheImages: up to `numberLoops` passes, each sending a software trigger
      in software-trigger mode, waiting and reading a frame; the loop stops
      after the first frame AcquireImageData rejects, and the acquisition is
      always aborted at the end.  `frames` holds what the driver delivers on
      each pass. */
  method GetTheImages(numberLoops: int, trigger: int, display: bool, hasData: bool,
                      buffer: Buffer, xPixels: nat, yPixels: nat, frames: seq<Frame>)
    returns (passes: nat, calls: seq<Call>, after: Buffer)
    requires numberLoops <= |frames|
    requires buffer.Block? ==> |buffer.pixels| == xPixels * yPixels
    requires forall k :: 0 <= k < |frames| ==> |frames[k].pixels| == xPixels * yPixels
    ensures passes <= |frames| && passes as int <= (if numberLoops > 0 then numberLoops else 0)
    ensures forall k :: 0 <= k < passes - 1 ==>
              Accepted(frames[k], display, hasData, buffer.Block?, xPixels, yPixels)
    ensures passes < numberLoops ==>
              passes > 0 && !Accepted(frames[passes - 1], display, hasData, buffer.Block?, xPixels, yPixels)
    ensures 0 < numberLoops ==> 0 < passes
    ensures |calls| > 0 && calls[|calls| - 1] == AbortAcquisition
    ensures CountCalls(calls, AbortAcquisition) == 1
    ensures CountCalls(calls, SendSoftwareTrigger) == (if trigger == SoftwareTrigger then passes else 0)
    ensures CountCalls(calls, GetNewData(xPixels * yPixels)) == passes
    ensures forall k :: 0 <= k < |calls| ==> !calls[k].SetTriggerMode?
    ensures StartAcquisition !in calls
    ensures after.Block? == buffer.Block?
  {
    var size := xPixels * yPixels;
    passes, calls, after := 0, [], buffer;
    var i := 0;
    while i < numberLoops
      invariant passes <= |frames|
      invariant (i == passes && (passes == 0 || passes as int <= numberLoops))
                || (i == numberLoops + 1 && 0 < passes && passes as int <= numberLoops
                    && !Accepted(frames[passes - 1], display, hasData, buffer.Block?, xPixels, yPixels))
      invariant forall k :: 0 <= k < passes - 1 ==>
                  Accepted(frames[k], display, hasData, buffer.Block?, xPixels, yPixels)
      invariant i == passes ==> forall k :: 0 <= k < passes ==>
                  Accepted(frames[k], display, hasData, buffer.Block?, xPixels, yPixels)
      invariant after.Block? == buffer.Block?
      invariant after.Block? ==> |after.pixels| == size
      invariant CountCalls(calls, SendSoftwareTrigger) == (if trigger == SoftwareTrigger then passes else 0)
      invariant CountCalls(calls, GetNewData(size)) == passes
      invariant CountCalls(calls, AbortAcquisition) == 0
      invariant forall k :: 0 <= k < |calls| ==> !calls[k].SetTriggerMode?
      invariant StartAcquisition !in calls
      decreases numberLoops - i
    {
      var pass := LoopPassCalls(trigger, size);
      CountCallsAbsent(pass, AbortAcquisition);
      CountCallsAppend(calls, pass, SendSoftwareTrigger);
      CountCallsAppend(calls, pass, GetNewData(size));
      CountCallsAppend(calls, pass, AbortAcquisition);
      calls := calls + pass;
      var r := AcquireImageData(frames[i], display, hasData, after, xPixels, yPixels);
      after := r.buffer;
      passes := passes + 1;
      if !r.ok {
        i := numberLoops;
      }
      i := i + 1;
    }
    CountCallsAppend(calls, [AbortAcquisition], SendSoftwareTrigger);
    CountCallsAppend(calls, [AbortAcquisition], GetNewData(size));
    CountCallsAppend(calls, [AbortAcquisition], AbortAcquisition);
    calls := calls + [AbortAcquisition];
  }

  /** What SetSystem of the continuous example leaves behind. */
  datatype Setup = Setup(
    ringExposures: int,      // number of exposure times given to SetRingExposureTimes
    trigger: int,            // giTrigger
    display: bool,           // gbDisplayImage
    bufferAllocated: bool,   // whether AllocateBuffers ran
    buffer: Buffer,          // pImageArray on return
    events: seq<MemEvent>,   // heap events, in order
    hasData: bool,           // gblData on return
    passes: nat,             // passes of the acquisition loop
    calls: seq<Call>)        // driver calls, in order

  /** The settings SetSystem sends before the capability gate, in order.  The
      shutter call is fixed: TTL 1, mode 1, zero closing and opening times. */
  function SettingsCalls(ring: int, trigger: int, xPixels: nat, yPixels: nat): (calls: seq<Call>)
    ensures |calls| == 6
    ensures calls[0] == SetRingExposureTimes(ring) && calls[1] == PrepareAcquisition
    ensures calls[2] == SetShutter(1, 1, 0, 0) && calls[3] == SetTriggerMode(trigger)
    ensures calls[4] == SetImage(1, 1, 1, xPixels, 1, yPixels) && calls[5] == GetAcquisitionTimings
    ensures StartAcquisition !in calls && IsTriggerModeAvailable(SoftwareTrigger) !in calls
    ensures CountCalls(calls, SendSoftwareTrigger) == 0
  {
    var calls := [SetRingExposureTimes(ring), PrepareAcquisition, SetShutter(1, 1, 0, 0),
                  SetTriggerMode(trigger), SetImage(1, 1, 1, xPixels, 1, yPixels),
                  GetAcquisitionTimings];
    CountCallsAbsent(calls, SendSoftwareTrigger);
    calls
  }

  /** SetSystem of the continuous example.  `continuousAvailable` is what the
      capabilities showed at start-up (gbContinuousModeAvailable), and
      `triggerModeRet`, `startRet` what IsTriggerModeAvailable(10) and
      StartAcquisition return. */
  method SetSystem(exposure2: real, numberLoops: int, triggerText: string, displayText: string,
                   continuousAvailable: bool, triggerModeRet: Ret, startRet: Ret,
                   mallocOk: bool, uninit: int -> int, xPixels: nat, yPixels: nat,
                   buffer: Buffer, hasData: bool, frames: seq<Frame>)
    returns (r: Setup)
    requires numberLoops <= |frames|
    requires forall k :: 0 <= k < |frames| ==> |frames[k].pixels| == xPixels * yPixels
    ensures r.ringExposures == RingExposureCount(exposure2) && r.trigger == TriggerMode(triggerText)
    ensures r.ringExposures == 2 <==> exposure2 != -1.0
    ensures |r.calls| >= 6 && r.calls[0] == SetRingExposureTimes(r.ringExposures)
    ensures r.calls[3] == SetTriggerMode(r.trigger)
    ensures forall k :: 3 < k < |r.calls| ==> !r.calls[k].SetTriggerMode?
    ensures r.calls[..6] == SettingsCalls(r.ringExposures, r.trigger, xPixels, yPixels)
    ensures continuousAvailable ==> |r.calls| > 6 && r.calls[6] == IsTriggerModeAvailable(SoftwareTrigger)
    ensures !r.bufferAllocated ==> |r.calls| == 6 + (if continuousAvailable then 1 else 0)
    ensures r.bufferAllocated ==>
              |r.calls| > 7 && r.calls[7] == StartAcquisition && CountCalls(r.calls, StartAcquisition) == 1
              && r.calls[|r.calls| - 1] == AbortAcquisition
    ensures r.display <==> displayText == "Yes"
    ensures r.bufferAllocated <==> continuousAvailable && triggerModeRet == Success
    ensures IsTriggerModeAvailable(SoftwareTrigger) in r.calls <==> continuousAvailable
    ensures !r.bufferAllocated ==>
              r.buffer == buffer && r.events == [] && r.hasData == hasData
              && StartAcquisition !in r.calls && r.passes == 0
    ensures r.bufferAllocated ==> r.buffer == Null && StartAcquisition in r.calls
    ensures NetBlocks(r.events) == Blocks(r.buffer) - Blocks(buffer)
    ensures r.hasData == (hasData && !(r.bufferAllocated && startRet == Failure))
    ensures r.passes > 0 ==> r.bufferAllocated && startRet == Success
    ensures r.bufferAllocated && startRet == Success && numberLoops > 0 ==> r.passes > 0
    ensures CountCalls(r.calls, SendSoftwareTrigger)
            == (if triggerText == "SoftTrigger" then r.passes else 0)
  {
    var ring := RingExposureCount(exposure2);
    var trigger := TriggerMode(triggerText);
    var display := DisplayImage(displayText);
    if !continuousAvailable || triggerModeRet != Success {
      var calls := SetSystemCalls(ring, trigger, xPixels, yPixels, continuousAvailable, false, []);
      return Setup(ring, trigger, display, false, buffer, [], hasData, 0, calls);
    }
    var after, events, data, passes, run :=
      StartAndRun(numberLoops, trigger, display, hasData, buffer, mallocOk, uninit,
                  xPixels, yPixels, startRet, frames);
    var calls := SetSystemCalls(ring, trigger, xPixels, yPixels, true, true, run);
    r := Setup(ring, trigger, display, true, after, events, data, passes, calls);
  }

  /** The driver calls of SetSystem: the settings, then the capability query
      when continuous mode is available, then `run` (the calls of StartAndRun)
      when the buffer was allocated and the run started. */
  function SetSystemCalls(ring: int, trigger: int, xPixels: nat, yPixels: nat,
                          continuousAvailable: bool, started: bool, run: seq<Call>): (calls: seq<Call>)
    requires started ==> continuousAvailable
    requires started ==> |run| > 0 && run[0] == StartAcquisition && run[|run| - 1] == AbortAcquisition
    requires started ==> CountCalls(run, StartAcquisition) == 1
    requires started ==> forall k :: 0 <= k < |run| ==> !run[k].SetTriggerMode?
    ensures |calls| >= 6 && calls[..6] == SettingsCalls(ring, trigger, xPixels, yPixels)
    ensures forall k :: 3 < k < |calls| ==> !calls[k].SetTriggerMode?
    ensures continuousAvailable ==> |calls| > 6 && calls[6] == IsTriggerModeAvailable(SoftwareTrigger)
    ensures IsTriggerModeAvailable(SoftwareTrigger) in calls <==> continuousAvailable
    ensures !started ==> |calls| == 6 + (if continuousAvailable then 1 else 0) && StartAcquisition !in calls
    ensures started ==>
              |calls| > 7 && calls[7] == StartAcquisition && CountCalls(calls, StartAcquisition) == 1
              && calls[|calls| - 1] == AbortAcquisition
    ensures CountCalls(calls, SendSoftwareTrigger)
            == (if started then CountCalls(run, SendSoftwareTrigger) else 0)
  {
    if !continuousAvailable then
      SettingsCalls(ring, trigger, xPixels, yPixels)
    else if !started then
      GatedCalls(ring, trigger, xPixels, yPixels)
    else
      StartedCalls(ring, trigger, xPixels, yPixels, run)
  }

  /** The settings, the capability query and then `run`, the calls of an
      acquisition that was started once and ends with an abort. */
  function StartedCalls(ring: int, trigger: int, xPixels: nat, yPixels: nat, run: seq<Call>): (calls: seq<Call>)
    requires |run| > 0 && run[0] == StartAcquisition && run[|run| - 1] == AbortAcquisition
    requires CountCalls(run, StartAcquisition) == 1
    requires forall k :: 0 <= k < |run| ==> !run[k].SetTriggerMode?
    ensures |calls| == 7 + |run| && calls[..6] == SettingsCalls(ring, trigger, xPixels, yPixels)
    ensures calls[6] == IsTriggerModeAvailable(SoftwareTrigger)
    ensures calls[7] == StartAcquisition && CountCalls(calls, StartAcquisition) == 1
    ensures calls[|calls| - 1] == AbortAcquisition
    ensures forall k :: 3 < k < |calls| ==> !calls[k].SetTriggerMode?
    ensures CountCalls(calls, SendSoftwareTrigger) == CountCalls(run, SendSoftwareTrigger)
  {
    var gated := GatedCalls(ring, trigger, xPixels, yPixels);
    var calls := gated + run;
    CountCallsAppend(gated, run, SendSoftwareTrigger);
    CountCallsAppend(gated, run, StartAcquisition);
    assert calls[..6] == gated[..6];
    assert forall k :: 7 <= k < |calls| ==> calls[k] == run[k - 7];
    calls
  }

  /** The settings followed by the query whether software triggering is
      available, which SetSystem makes only when continuous mode is. */
  function GatedCalls(ring: int, trigger: int, xPixels: nat, yPixels: nat): (calls: seq<Call>)
    ensures |calls| == 7 && calls[..6] == SettingsCalls(ring, trigger, xPixels, yPixels)
    ensures calls[6] == IsTriggerModeAvailable(SoftwareTrigger)
    ensures forall k :: 3 < k < |calls| ==> !calls[k].SetTriggerMode?
    ensures StartAcquisition !in calls
    ensures CountCalls(calls, SendSoftwareTrigger) == 0 && CountCalls(calls, StartAcquisition) == 0
  {
    var settings := SettingsCalls(ring, trigger, xPixels, yPixels);
    var calls := settings + [IsTriggerModeAvailable(SoftwareTrigger)];
    assert calls[..6] == settings;
    CountCallsAbsent(calls, SendSoftwareTrigger);
    CountCallsAbsent(calls, StartAcquisition);
    calls
  }

  /** StartAcquisition followed by the calls made once it has returned, which
      end with the abort and do not start again. */
  function RunCalls(after: seq<Call>): (calls: seq<Call>)
    requires |after| > 0 && after[|after| - 1] == AbortAcquisition
    requires StartAcquisition !in after
    requires forall k :: 0 <= k < |after| ==> !after[k].SetTriggerMode?
    ensures |calls| == 1 + |after| && calls[0] == StartAcquisition
    ensures CountCalls(calls, StartAcquisition) == 1 && calls[|calls| - 1] == AbortAcquisition
    ensures forall k :: 0 <= k < |calls| ==> !calls[k].SetTriggerMode?
    ensures CountCalls(calls, SendSoftwareTrigger) == CountCalls(after, SendSoftwareTrigger)
  {
    CountCallsAppend([StartAcquisition], after, SendSoftwareTrigger);
    CountCallsAppend([StartAcquisition], after, StartAcquisition);
    CountCallsAbsent(after, StartAcquisition);
    CountCallsAbsent([StartAcquisition], SendSoftwareTrigger);
    assert forall k :: 1 <= k < 1 + |after| ==> ([StartAcquisition] + after)[k] == after[k - 1];
    [StartAcquisition] + after
  }

  /** The part of SetSystem after the gate: allocate the buffer, start the
      acquisition, run the acquisition loop when the start succeeded (abort
      otherwise), and free the buffer. */
  method StartAndRun(numberLoops: int, trigger: int, display: bool, hasData: bool,
                     buffer: Buffer, mallocOk: bool, uninit: int -> int,
                     xPixels: nat, yPixels: nat, startRet: Ret, frames: seq<Frame>)
    returns (after: Buffer, events: seq<MemEvent>, data: bool, passes: nat, calls: seq<Call>)
    requires numberLoops <= |frames|
    requires forall k :: 0 <= k < |frames| ==> |frames[k].pixels| == xPixels * yPixels
    ensures after == Null
    ensures NetBlocks(events) == Blocks(after) - Blocks(buffer)
    ensures data == (hasData && startRet == Success)
    ensures passes > 0 ==> startRet == Success
    ensures startRet == Success && numberLoops > 0 ==> passes > 0
    ensures |calls| > 0 && calls[0] == StartAcquisition
    ensures startRet == Failure ==> calls == [StartAcquisition, AbortAcquisition] && passes == 0
    ensures forall k :: 0 <= k < |calls| ==> !calls[k].SetTriggerMode?
    ensures CountCalls(calls, StartAcquisition) == 1 && calls[|calls| - 1] == AbortAcquisition
    ensures CountCalls(calls, SendSoftwareTrigger) == (if trigger == SoftwareTrigger then passes else 0)
  {
    var a := AllocateBuffers(buffer, xPixels, yPixels, mallocOk, uninit);
    passes, data := 0, hasData;
    if startRet != Success {
      calls, data := RunCalls([AbortAcquisition]), false;
    } else {
      var loopCalls, filled;
      passes, loopCalls, filled := GetTheImages(numberLoops, trigger, display, hasData, a.buffer,
                                                xPixels, yPixels, frames);
      calls := RunCalls(loopCalls);
    }
    var freed := FreeBuffers(a.buffer);
    NetBlocksAppend(a.events, freed.events);
    after, events := freed.buffer, a.events + freed.events;
  }

  /** The buffer state the continuous example keeps between button presses. */
  datatype Window = Window(hasData: bool, buffer: Buffer)

  /** A Start, Abort or Close press in the continuous example, SetSystem
      included.  Because SetSystem frees the buffer it allocated, the buffer
      stays NULL, and a repaint shows the logo whatever `gblData` says. */
  method PressButton(button: Controls.Button, status: Status, w: Window, abortRet: Ret,
                     exposure2: real, numberLoops: int, triggerText: string, displayText: string,
                     continuousAvailable: bool, triggerModeRet: Ret, startRet: Ret,
                     mallocOk: bool, uninit: int -> int, xPixels: nat, yPixels: nat,
                     frames: seq<Frame>)
    returns (after: Window)
    requires numberLoops <= |frames|
    requires forall k :: 0 <= k < |frames| ==> |frames[k].pixels| == xPixels * yPixels
    ensures w.buffer == Null ==> after.buffer == Null && RepaintChoice(after.hasData, after.buffer) == Logo
    ensures button == Controls.StartButton ==>
              (after.hasData <==>
                 !(status == Idle && continuousAvailable && triggerModeRet == Success && startRet == Failure))
    ensures w.hasData && !after.hasData ==>
              (button == Controls.AbortButton && status == Acquiring)
              || (button == Controls.StartButton && status == Idle && startRet == Failure)
    ensures !w.hasData && after.hasData ==> button == Controls.StartButton
  {
    var p := Controls.ProcessPushButtons(button, status, w.hasData, abortRet);
    if p.runSetSystem {
      var s := SetSystem(exposure2, numberLoops, triggerText, displayText, continuousAvailable,
                         triggerModeRet, startRet, mallocOk, uninit, xPixels, yPixels,
                         w.buffer, p.hasData, frames);
      after := Window(s.hasData, s.buffer);
    } else {
      after := Window(p.hasData, w.buffer);
    }
  }
}

=== FILE: controls.dfy ===
/** ProcessPushButtons, identical in the image and the continuous examples:
    Start marks that data exist and starts an acquisition only when the driver
    is idle; Abort stops an acquisition only when one is running.
 */
module Controls {
  import opened Driver

  datatype Button = StartButton | AbortButton | CloseButton

  /** The effect of one button press before SetSystem runs: the new `gblData`,
      whether SetSystem is to run, the driver calls made, the status text
      written (empty when none) and whether the main window is destroyed. */
  datatype Pressed = Pressed(hasData: bool, runSetSystem: bool, calls: seq<Call>,
                             message: string, destroy: bool)

  /** ProcessPushButtons.  `status` is what GetStatus reports and `abortRet`
      what AbortAcquisition returns. */
  function ProcessPushButtons(button: Button, status: Status, hasData: bool, abortRet: Ret)
    : (r: Pressed)
    ensures button == StartButton ==>
              r.hasData && (r.runSetSystem <==> status == Idle) && r.calls == []
    ensures button != StartButton ==> !r.runSetSystem
    ensures button == AbortButton ==>
              (r.calls == [AbortAcquisition] <==> status == Acquiring)
              && (r.hasData <==> hasData && status != Acquiring)
    ensures button == AbortButton && status != Acquiring ==>
              r.calls == [] && r.message == "System not Acquiring"
    ensures button == AbortButton && status == Acquiring ==>
              r.message == (if abortRet == Success then "Aborting Acquisition"
                            else "Error aborting acquistion")
    ensures r.destroy <==> button == CloseButton
    ensures button == CloseButton ==> r.hasData == hasData && r.calls == []
    ensures hasData && !r.hasData <==> hasData && button == AbortButton && status == Acquiring
    ensures !hasData && r.hasData <==> !hasData && button == StartButton
  {
    match button
    case StartButton =>
      Pressed(true, status == Idle, [], "", false)
    case AbortButton =>
      if status == Acquiring then
        var message := if abortRet != Success then "Error aborting acquistion"
                       else "Aborting Acquisition";
        Pressed(false, false, [AbortAcquisition], message, false)
      else
        Pressed(hasData, false, [], "System not Acquiring", false)
    case CloseButton =>
      Pressed(hasData, false, [], "", true)
  }
}

=== FILE: display.dfy ===
/** DrawLines: the min/max scan over the image buffer and the decision to
    paint, identical in the image and the continuous examples.

    The scan starts from the sentinels 1 (for the maximum) and 65536 (for the
    minimum), not from the first pixel.  The reported extremes are therefore
    bounded by the sentinels, and a sentinel can be reported although no pixel
    holds it.
 */
module Display {
  import opened Buffers

  /** Starting value of the running maximum. */
  const MaxStart: int := 1
  /** Starting value of the running minimum. */
  const MinStart: int := 65536

  datatype Extremes = Extremes(max: int, min: int)

  /** The running extremes after the first `n` pixels: the reference for the scan. */
  function ScanFrom(pixels: seq<int>, n: nat): Extremes
    requires n <= |pixels|
  {
    if n == 0 then Extremes(MaxStart, MinStart)
    else
      var e := ScanFrom(pixels, n - 1);
      var p := pixels[n - 1];
      Extremes(if p > e.max then p else e.max, if p < e.min then p else e.min)
  }

  /** What the scan computes: the larger of the sentinel 1 and every pixel, and
      the smaller of the sentinel 65536 and every pixel.  Each extreme is
      either its sentinel or the value of a scanned pixel. */
  lemma {:induction false} ScanBounds(pixels: seq<int>, n: nat)
    requires n <= |pixels|
    ensures ScanFrom(pixels, n).max >= MaxStart
    ensures ScanFrom(pixels, n).min <= MinStart
    ensures forall i :: 0 <= i < n ==> ScanFrom(pixels, n).min <= pixels[i] <= ScanFrom(pixels, n).max
    ensures ScanFrom(pixels, n).max == MaxStart || exists i :: 0 <= i < n && pixels[i] == ScanFrom(pixels, n).max
    ensures ScanFrom(pixels, n).min == MinStart || exists i :: 0 <= i < n && pixels[i] == ScanFrom(pixels, n).min
  {
    if n > 0 {
      ScanBounds(pixels, n - 1);
    }
  }

  /** The loop of DrawLines: scan pixels 0 .. n-1 and nothing beyond. */
  method ScanExtremes(pixels: seq<int>, n: nat) returns (maxValue: int, minValue: int)
    requires n <= |pixels|
    ensures Extremes(maxValue, minValue) == ScanFrom(pixels, n)
    ensures maxValue >= MaxStart && minValue <= MinStart
    ensures forall i :: 0 <= i < n ==> minValue <= pixels[i] <= maxValue
  {
    maxValue, minValue := MaxStart, MinStart;
    var i := 0;
    while i < n
      invariant 0 <= i <= n
      invariant Extremes(maxValue, minValue) == ScanFrom(pixels, i)
    {
      if pixels[i] > maxValue {
        maxValue := pixels[i];
      }
      if pixels[i] < minValue {
        minValue := pixels[i];
      }
      i := i + 1;
    }
    ScanBounds(pixels, n);
  }

  /** DrawLines' return value and its two out-parameters, together with whether
      PaintImage was called. */
  datatype DrawOutcome = DrawOutcome(ok: bool, maxOut: int, minOut: int, painted: bool)

  /** DrawLines(pMaxDataValue, pMinDataValue).  `maxOut` and `minOut` are the
      values the out-parameters hold before the call; they are written only on
      the success path. */
  function DrawLines(hasData: bool, buffer: Buffer, xPixels: nat, yPixels: nat,
                     maxOut: int, minOut: int): (r: DrawOutcome)
    requires buffer.Block? ==> xPixels * yPixels <= |buffer.pixels|
    ensures !hasData || buffer.Null? ==> r == DrawOutcome(false, maxOut, minOut, false)
    ensures r.painted == r.ok
    ensures !r.ok ==> r.maxOut == maxOut && r.minOut == minOut
    ensures r.ok ==> buffer.Block? && Extremes(r.maxOut, r.minOut) == ScanFrom(buffer.pixels, xPixels * yPixels)
    ensures r.ok ==> r.maxOut != r.minOut && r.maxOut >= MaxStart && r.minOut <= MinStart
    ensures r.ok ==> forall i :: 0 <= i < xPixels * yPixels ==>
              r.minOut <= buffer.pixels[i] <= r.maxOut
    ensures hasData && buffer.Block? ==>
              (r.ok <==> ScanFrom(buffer.pixels, xPixels * yPixels).max
                         != ScanFrom(buffer.pixels, xPixels * yPixels).min)
  {
    if hasData && buffer.Block? then
      var n := xPixels * yPixels;
      var e := ScanFrom(buffer.pixels, n);
      ScanBounds(buffer.pixels, n);
      if e.max == e.min then DrawOutcome(false, maxOut, minOut, false)
      else DrawOutcome(true, e.max, e.min, true)
    else
      DrawOutcome(false, maxOut, minOut, false)
  }

  /** A uniform image whose value lies in [1, 65536] is never painted: both
      extremes collapse onto that value and DrawLines reports a zero range. */
  lemma UniformImageRejected(pixels: seq<int>, xPixels: nat, yPixels: nat, v: int,
                             maxOut: int, minOut: int)
    requires 1 <= xPixels * yPixels <= |pixels|
    requires forall i :: 0 <= i < xPixels * yPixels ==> pixels[i] == v
    requires MaxStart <= v <= MinStart
    ensures !DrawLines(true, Block(pixels), xPixels, yPixels, maxOut, minOut).ok
  {
    var n := xPixels * yPixels;
    ScanBounds(pixels, n);
    assert pixels[0] == v;
  }

  /** A uniform image brighter than 65536 is painted, and the minimum reported
      is the sentinel 65536, which no pixel holds. */
  lemma BrightImageReportsSentinelMin(pixels: seq<int>, xPixels: nat, yPixels: nat, v: int,
                                      maxOut: int, minOut: int)
    requires 1 <= xPixels * yPixels <= |pixels|
    requires forall i :: 0 <= i < xPixels * yPixels ==> pixels[i] == v
    requires v > MinStart
    ensures DrawLines(true, Block(pixels), xPixels, yPixels, maxOut, minOut)
            == DrawOutcome(true, v, MinStart, true)
  {
    var n := xPixels * yPixels;
    ScanBounds(pixels, n);
    assert pixels[0] == v;
  }

  /** A uniform image no brighter than 0 is painted, and the maximum reported
      is the sentinel 1, which no pixel holds. */
  lemma DarkImageReportsSentinelMax(pixels: seq<int>, xPixels: nat, yPixels: nat, v: int,
                                    maxOut: int, minOut: int)
    requires 1 <= xPixels * yPixels <= |pixels|
    requires forall i :: 0 <= i < xPixels * yPixels ==> pixels[i] == v
    requires v < MaxStart
    ensures DrawLines(true, Block(pixels), xPixels, yPixels, maxOut, minOut)
            == DrawOutcome(true, MaxStart, v, true)
  {
    var n := xPixels * yPixels;
    ScanBounds(pixels, n);
    assert pixels[0] == v;
  }

  /** With a zero-sized image (the detector size never read) the scan sees no
      pixel, the sentinels are reported with the maximum below the minimum,
      and DrawLines goes on to paint. */
  lemma EmptyImagePainted(pixels: seq<int>, xPixels: nat, yPixels: nat, maxOut: int, minOut: int)
    requires xPixels * yPixels == 0
    ensures DrawLines(true, Block(pixels), xPixels, yPixels, maxOut, minOut)
            == DrawOutcome(true, MaxStart, MinStart, true)
    ensures MaxStart < MinStart
  {
  }

  /** Which branch PaintDataWindow takes on a repaint. */
  datatype Repaint = Logo | DrawData

  /** PaintDataWindow: the logo is shown until data exists and a buffer is held;
      otherwise the data are redrawn through DrawLines. */
  function RepaintChoice(hasData: bool, buffer: Buffer): (r: Repaint)
    ensures r == DrawData <==> hasData && buffer.Block?
    ensures r == Logo <==> !hasData || buffer.Null?
  {
    if !hasData || buffer.Null? then Logo else DrawData
  }
}

=== FILE: driver.dfy ===
/** The camera driver as the examples see it.

    The driver is a closed library: every value it hands back (a return code,
    a status, the pixels of a frame) is an input of the model, and the calls
    the examples make into it are recorded as `Call` values so that contracts
    can speak about their order.
 */
module Driver {

  /** A driver return code: DRV_SUCCESS, or any other code. */
  datatype Ret = Success | Failure

  /** The acquisition status reported by GetStatus. */
  datatype Status = Idle | Acquiring | OtherStatus(code: int)

  /** The driver calls whose order or arguments the model states something about. */
  datatype Call =
    | SetExposureTime
    | GetAcquisitionTimings
    | SetRingExposureTimes(count: int)
    | PrepareAcquisition
    | SetShutter(ttl: int, mode: int, closingTime: int, openingTime: int)
    | SetTriggerMode(mode: int)
    | IsTriggerModeAvailable(mode: int)
    | SetImage(hbin: int, vbin: int, hstart: int, hend: int, vstart: int, vend: int)
    | StartAcquisition
    | AbortAcquisition
    | SendSoftwareTrigger
    | WaitForAcquisition
    | GetNewData(size: int)
    | GetAcquiredData(size: int)
    | CoolerOff
    | ShutDown

  /** Number of occurrences of `c` in a call trace. */
  function CountCalls(calls: seq<Call>, c: Call): nat
  {
    if calls == [] then 0
    else (if calls[0] == c then 1 else 0) + CountCalls(calls[1..], c)
  }

  lemma {:induction false} CountCallsAppend(a: seq<Call>, b: seq<Call>, c: Call)
    ensures CountCalls(a + b, c) == CountCalls(a, c) + CountCalls(b, c)
  {
    if a == [] {
      assert a + b == b;
    } else {
      assert (a + b)[1..] == a[1..] + b;
      CountCallsAppend(a[1..], b, c);
    }
  }

  lemma {:induction false} CountCallsAbsent(calls: seq<Call>, c: Call)
    requires c !in calls
    ensures CountCalls(calls, c) == 0
  {
    if calls != [] {
      CountCallsAbsent(calls[1..], c);
    }
  }
}

=== FILE: imgwndw.dfy ===
/** The single-image example: the shutter and trigger settings SetSystem reads
    from the dialog, the start of an acquisition, AcquireImageData, and how a
    button press changes `gblData`.
 */
module ImageWindow {
  import opened Driver
  import opened Buffers
  import opened Display
  import Controls

  /** The texts the TTL combobox offers. */
  predicate IsTtlOption(text: string)
  {
    text == "Low" || text == "High"
  }

  /** The texts the trigger combobox offers. */
  predicate IsTriggerOption(text: string)
  {
    text == "Internal" || text == "External"
  }

  /** TTL level for the selected combobox text: "Low" is 0, "High" is 1. */
  function TtlLevel(text: string): (ttl: int)
    requires IsTtlOption(text)
    ensures ttl == 0 <==> text == "Low"
    ensures ttl == 1 <==> text == "High"
  {
    if text == "Low" then 0 else 1
  }

  /** Trigger mode for the selected combobox text: "Internal" is 0, "External" is 1. */
  function TriggerSource(text: string): (mode: int)
    requires IsTriggerOption(text)
    ensures mode == 0 <==> text == "Internal"
    ensures mode == 1 <==> text == "External"
  {
    if text == "Internal" then 0 else 1
  }

  /** Shutter opening and closing time: a value of 0 is replaced by 1. */
  function OpenCloseTime(t: int): (r: int)
    ensures t == 0 ==> r == 1
    ensures t != 0 ==> r == t
  {
    if t == 0 then 1 else t
  }

  /** The settings SetSystem sends before starting, in order: exposure time,
      the timings read back, the shutter (TTL level, fully automatic mode 0,
      equal closing and opening times), the trigger mode and the full image. */
  function SettingsCalls(ttl: int, trigger: int, t: int, xPixels: nat, yPixels: nat): (calls: seq<Call>)
    ensures |calls| == 5
    ensures calls[0] == SetExposureTime && calls[1] == GetAcquisitionTimings
    ensures calls[2] == SetShutter(ttl, 0, t, t) && calls[3] == SetTriggerMode(trigger)
    ensures calls[4] == SetImage(1, 1, 1, xPixels, 1, yPixels)
    ensures StartAcquisition !in calls && AbortAcquisition !in calls
  {
    [SetExposureTime, GetAcquisitionTimings, SetShutter(ttl, 0, t, t),
     SetTriggerMode(trigger), SetImage(1, 1, 1, xPixels, 1, yPixels)]
  }

  /** What SetSystem leaves behind: the driver calls in order, whether the
      status timer was started, the new `gblData` and whether the user is told
      to wait for an external trigger. */
  datatype Setup = Setup(calls: seq<Call>, timerStarted: bool, hasData: bool, waitingForTrigger: bool)

  /** SetSystem of the image example.  `openClose` is the number read from the
      open/close box and `startRet` what StartAcquisition returns. */
  function SetSystem(ttlText: string, triggerText: string, openClose: int,
                     xPixels: nat, yPixels: nat, startRet: Ret, hasData: bool): (r: Setup)
    requires IsTtlOption(ttlText) && IsTriggerOption(triggerText)
    ensures |r.calls| == (if startRet == Success then 6 else 7)
    ensures r.calls[..5] == SettingsCalls(TtlLevel(ttlText), TriggerSource(triggerText),
                                          OpenCloseTime(openClose), xPixels, yPixels)
    ensures r.calls[5] == StartAcquisition
    ensures var t := OpenCloseTime(openClose);
            r.calls[2] == SetShutter(TtlLevel(ttlText), 0, t, t)
    ensures r.calls[3] == SetTriggerMode(TriggerSource(triggerText))
    ensures r.calls[4] == SetImage(1, 1, 1, xPixels, 1, yPixels)
    ensures CountCalls(r.calls, StartAcquisition) == 1
    ensures r.timerStarted <==> startRet == Success
    ensures CountCalls(r.calls, AbortAcquisition) == (if startRet == Success then 0 else 1)
    ensures r.calls[|r.calls| - 1] == (if startRet == Success then StartAcquisition else AbortAcquisition)
    ensures r.hasData == (hasData && startRet == Success)
    ensures r.waitingForTrigger <==> triggerText == "External"
  {
    var t := OpenCloseTime(openClose);
    var trig := TriggerSource(triggerText);
    var calls := StartCalls(SettingsCalls(TtlLevel(ttlText), trig, t, xPixels, yPixels), startRet);
    if startRet == Success then
      Setup(calls, true, hasData, trig == 1)
    else
      Setup(calls, false, false, trig == 1)
  }

  /** The settings followed by StartAcquisition and, when the start fails,
      by AbortAcquisition. */
  function StartCalls(settings: seq<Call>, startRet: Ret): (calls: seq<Call>)
    requires StartAcquisition !in settings && AbortAcquisition !in settings
    ensures |calls| == |settings| + (if startRet == Success then 1 else 2)
    ensures calls[..|settings|] == settings && calls[|settings|] == StartAcquisition
    ensures CountCalls(calls, StartAcquisition) == 1
    ensures CountCalls(calls, AbortAcquisition) == (if startRet == Success then 0 else 1)
    ensures calls[|calls| - 1] == (if startRet == Success then StartAcquisition else AbortAcquisition)
  {
    var started := settings + [StartAcquisition];
    CountCallsAbsent(settings, StartAcquisition);
    CountCallsAbsent(settings, AbortAcquisition);
    CountCallsAppend(settings, [StartAcquisition], StartAcquisition);
    CountCallsAppend(settings, [StartAcquisition], AbortAcquisition);
    assert started[..|settings|] == settings;
    if startRet == Success then
      started
    else
      CountCallsAppend(started, [AbortAcquisition], StartAcquisition);
      CountCallsAppend(started, [AbortAcquisition], AbortAcquisition);
      assert (started + [AbortAcquisition])[..|settings|] == settings;
      started + [AbortAcquisition]
  }

  /** The settings SetSystem sends identify the dialog's choices: two TTL or
      trigger selections give the same calls only when they are the same. */
  lemma SetSystemReflectsDialog(ttlA: string, triggerA: string, ttlB: string, triggerB: string,
                                openClose: int, xPixels: nat, yPixels: nat, startRet: Ret, hasData: bool)
    requires IsTtlOption(ttlA) && IsTriggerOption(triggerA)
    requires IsTtlOption(ttlB) && IsTriggerOption(triggerB)
    ensures SetSystem(ttlA, triggerA, openClose, xPixels, yPixels, startRet, hasData).calls
            == SetSystem(ttlB, triggerB, openClose, xPixels, yPixels, startRet, hasData).calls
            <==> ttlA == ttlB && triggerA == triggerB
  {
    var a := SetSystem(ttlA, triggerA, openClose, xPixels, yPixels, startRet, hasData).calls;
    var b := SetSystem(ttlB, triggerB, openClose, xPixels, yPixels, startRet, hasData).calls;
    if a == b {
      assert a[2] == b[2] && a[3] == b[3];
      assert TtlLevel(ttlA) == TtlLevel(ttlB);
      assert TriggerSource(triggerA) == TriggerSource(triggerB);
    }
  }

  /** The text AcquireImageData puts in the status box. */
  datatype Report = AcquisitionError | DataRangeZero | Aborted | Complete(maxValue: int, minValue: int)

  /** What AcquireImageData leaves behind. */
  datatype Acquired = Acquired(ok: bool, buffer: Buffer, events: seq<MemEvent>,
                               timerKilled: bool, report: Report, painted: bool)

  /** AcquireImageData of the image example: allocate a fresh buffer, read the
      frame with GetAcquiredData (`dataRet`, writing `data`), then scan and
      paint it.  The "Acquisition aborted" report is never produced: with
      `gblData` FALSE, DrawLines already fails and "Data range is zero" is
      reported instead. */
  function AcquireImageData(buffer: Buffer, xPixels: nat, yPixels: nat, mallocOk: bool,
                            uninit: int -> int, dataRet: Ret, data: seq<int>, hasData: bool)
    : (r: Acquired)
    requires |data| == xPixels * yPixels
    ensures NetBlocks(r.events) == Blocks(r.buffer) - Blocks(buffer)
    ensures r.buffer.Block? <==> mallocOk
    ensures buffer.Block? ==> |r.events| >= 1 && r.events[0] == Free(|buffer.pixels|)
    ensures dataRet == Failure ==> !r.ok && r.report == AcquisitionError && !r.timerKilled && !r.painted
    ensures dataRet == Success ==> r.timerKilled
    ensures r.ok ==> hasData && mallocOk && r.buffer == Block(data)
    ensures r.ok <==> dataRet == Success && mallocOk && hasData
                      && ScanFrom(data, |data|).max != ScanFrom(data, |data|).min
    ensures r.ok ==> r.report == Complete(ScanFrom(data, |data|).max, ScanFrom(data, |data|).min)
    ensures dataRet == Success && !r.ok ==> r.report == DataRangeZero
    ensures r.ok ==> r.report.Complete? && r.report.maxValue != r.report.minValue
    ensures r.ok ==> forall i :: 0 <= i < |data| ==> r.report.minValue <= data[i] <= r.report.maxValue
    ensures r.report != Aborted
    ensures r.painted == r.ok
    ensures !hasData ==> !r.ok
  {
    var a := AllocateBuffers(buffer, xPixels, yPixels, mallocOk, uninit);
    if dataRet == Failure then
      Acquired(false, a.buffer, a.events, false, AcquisitionError, false)
    else
      var filled := if a.buffer.Block? then Block(data) else Null;
      var d := DrawLines(hasData, filled, xPixels, yPixels, 0, 0);
      var e := ScanFrom(data, |data|);
      assert d.ok <==> hasData && mallocOk && e.max != e.min;
      if !d.ok then
        Acquired(false, filled, a.events, true, DataRangeZero, false)
      else if !hasData then
        Acquired(true, filled, a.events, true, Aborted, true)
      else
        assert Extremes(d.maxOut, d.minOut) == e;
        assert dataRet == Success && mallocOk && hasData && e.max != e.min;
        Acquired(true, filled, a.events, true, Complete(d.maxOut, d.minOut), true)
  }

  /** A Start, Abort or Close press in the image example, SetSystem included.
      Returns the new `gblData` and the driver calls made. */
  function PressButton(button: Controls.Button, status: Status, hasData: bool, abortRet: Ret,
                       ttlText: string, triggerText: string, openClose: int,
                       xPixels: nat, yPixels: nat, startRet: Ret): (r: (bool, seq<Call>))
    requires IsTtlOption(ttlText) && IsTriggerOption(triggerText)
    ensures button == Controls.StartButton ==>
              (r.0 <==> !(status == Idle && startRet == Failure))
    ensures hasData && !r.0 ==>
              (button == Controls.AbortButton && status == Acquiring)
              || (button == Controls.StartButton && status == Idle && startRet == Failure)
    ensures !hasData && r.0 ==> button == Controls.StartButton
    ensures CountCalls(r.1, StartAcquisition) == (if button == Controls.StartButton && status == Idle then 1 else 0)
  {
    var p := Controls.ProcessPushButtons(button, status, hasData, abortRet);
    if p.runSetSystem then
      var s := SetSystem(ttlText, triggerText, openClose, xPixels, yPixels, startRet, p.hasData);
      CountCallsAppend(p.calls, s.calls, StartAcquisition);
      (s.hasData, p.calls + s.calls)
    else
      (p.hasData, p.calls)
  }
}

=== FILE: paint.dfy ===
/** The integer side of PaintImage: the padded bitmap width, nearest-neighbour
    sampling from the image buffer and the palette index of each bitmap byte.

    The source computes the scale factors and the intensity in single and
    double precision floating point.  Here they are exact: a sampled column is
    floor(j * xPixels / width), a sampled row floor(i * yPixels / height), and
    an intensity ceil(256 / (max - min) * (p - min)) over the reals.
 */
module Paint {

  /** Number of palette entries (`Color`). */
  const Colors: int := 256

  /** The paint area, as FillRectangle sets `rect`. */
  const RectLeft: int := 340
  const RectTop: int := 20
  const RectRight: int := 611
  const RectBottom: int := 291

  predicate MultipleOf4(m: int)
  {
    m % 4 == 0
  }

  /** The bitmap width: `width` rounded up to a multiple of 4, as StretchDIBits
      needs.  It is the least such multiple, so it adds at most 3. */
  function PaddedWidth(width: nat): (r: nat)
    ensures MultipleOf4(r)
    ensures width <= r < width + 4
    ensures forall m :: MultipleOf4(m) && width <= m ==> r <= m
  {
    if width % 4 != 0 then width + (4 - width % 4) else width
  }

  /** Width and height of the bitmap painted into the paint area. */
  const BitmapWidth: nat := PaddedWidth(RectRight - RectLeft + 1)
  const BitmapHeight: nat := RectBottom - RectTop + 1

  lemma BitmapSize()
    ensures BitmapWidth == 272 && BitmapHeight == 272
  {
  }

  /** Distance between two integers. */
  function Dist(a: int, b: int): nat
  {
    if a <= b then b - a else a - b
  }

  /** The palette index of an intensity: below 0 gives 0, above Colors - 1
      gives Colors - 1, anything else is kept.  It is the palette entry nearest
      to the intensity. */
  function PaletteIndex(d: int): (r: int)
    ensures 0 <= r < Colors
    ensures forall k :: 0 <= k < Colors ==> Dist(r, d) <= Dist(k, d)
  {
    if d < 0 then 0 else if d > Colors - 1 then Colors - 1 else d
  }

  /** Clamping keeps a valid index and is monotone. */
  lemma PaletteIndexProperties(d: int, e: int)
    ensures 0 <= d < Colors ==> PaletteIndex(d) == d
    ensures PaletteIndex(PaletteIndex(d)) == PaletteIndex(d)
    ensures d <= e ==> PaletteIndex(d) <= PaletteIndex(e)
  {
  }

  /** The ceiling of a real number. */
  function Ceil(q: real): (r: int)
    ensures q <= r as real < q + 1.0
  {
    -((-q).Floor)
  }

  /** The unclamped intensity of pixel value `p`: ceil(256 / (max - min) * (p - min)). */
  function Level(p: int, minValue: int, maxValue: int): (r: int)
    requires maxValue != minValue
    ensures var range, d := maxValue - minValue, p - minValue;
            range > 0 ==> (r - 1) * range < 256 * d <= r * range
    ensures var range, d := maxValue - minValue, p - minValue;
            range < 0 ==> r * range <= 256 * d < (r - 1) * range
  {
    var range := (maxValue - minValue) as real;
    var q := 256.0 / range * (p - minValue) as real;
    var r := Ceil(q);
    assert q * range == 256.0 * (p - minValue) as real;
    CeilBrackets(q, range, r, 256.0 * (p - minValue) as real);
    r
  }

  /** Multiplying the bracket q <= r < q + 1 of a ceiling by the range. */
  lemma CeilBrackets(q: real, range: real, r: int, scaled: real)
    requires range != 0.0
    requires q * range == scaled
    requires q <= r as real < q + 1.0
    ensures range > 0.0 ==> (r - 1) as real * range < scaled <= r as real * range
    ensures range < 0.0 ==> r as real * range <= scaled < (r - 1) as real * range
  {
    var below, above := (r - 1) as real, r as real;
    if range > 0.0 {
      ScaleMonotone(range, q, above);
      assert range * above == above * range && range * q == scaled;
      ScaleStrict(range, below, q);
      assert q * range == scaled;
    } else {
      ScaleMonotone(-range, q, above);
      assert -range * above == -(above * range) && -range * q == -scaled;
      ScaleStrict(-range, below, q);
      assert below * -range == -(below * range) && q * -range == -scaled;
    }
  }

  lemma ScaleStrict(s: real, a: real, b: real)
    requires s > 0.0 && a < b
    ensures a * s < b * s
  {
    assert b * s - a * s == (b - a) * s;
  }

  /** The byte PaintImage writes for pixel value `p`. */
  function PaletteByte(p: int, minValue: int, maxValue: int): (r: int)
    requires maxValue != minValue
    ensures 0 <= r < Colors
  {
    PaletteIndex(Level(p, minValue, maxValue))
  }

  /** For a proper range, the minimum (and anything darker) maps to the first
      palette entry, the maximum (and anything brighter) to the last. */
  lemma PaletteByteEnds(p: int, minValue: int, maxValue: int)
    requires minValue < maxValue
    ensures PaletteByte(minValue, minValue, maxValue) == 0
    ensures p >= maxValue ==> PaletteByte(p, minValue, maxValue) == Colors - 1
    ensures p <= minValue ==> PaletteByte(p, minValue, maxValue) == 0
  {
    var range := (maxValue - minValue) as real;
    var s := 256.0 / range;
    assert (minValue - minValue) as real == 0.0;
    assert s * 0.0 == 0.0;
    assert Level(minValue, minValue, maxValue) == 0;
    if p >= maxValue {
      ScaleMonotone(s, range, (p - minValue) as real);
      assert s * range == 256.0;
      assert Level(p, minValue, maxValue) >= 256;
    }
    if p <= minValue {
      ScaleMonotone(s, (p - minValue) as real, 0.0);
      assert Level(p, minValue, maxValue) <= 0;
    }
  }

  /** Brighter pixels never get a lower palette index. */
  lemma PaletteByteMonotone(p: int, q: int, minValue: int, maxValue: int)
    requires minValue < maxValue
    requires p <= q
    ensures PaletteByte(p, minValue, maxValue) <= PaletteByte(q, minValue, maxValue)
  {
    var s := 256.0 / (maxValue - minValue) as real;
    ScaleMonotone(s, (p - minValue) as real, (q - minValue) as real);
    CeilMonotone(s * (p - minValue) as real, s * (q - minValue) as real);
    PaletteIndexProperties(Level(p, minValue, maxValue), Level(q, minValue, maxValue));
  }

  lemma ScaleMonotone(s: real, a: real, b: real)
    requires s > 0.0 && a <= b
    ensures s * a <= s * b
  {
    assert s * b - s * a == s * (b - a);
  }

  lemma CeilMonotone(a: real, b: real)
    requires a <= b
    ensures Ceil(a) <= Ceil(b)
  {
  }

  /** The sampled source column of bitmap column j: floor(j * xPixels / width). */
  function SampleColumn(j: nat, xPixels: nat, width: nat): (x: nat)
    requires width > 0
    ensures x * width <= j * xPixels < (x + 1) * width
    ensures j < width && xPixels > 0 ==> x < xPixels
  {
    var x := (j * xPixels) / width;
    assert j < width && xPixels > 0 ==> x < xPixels by {
      if j < width && xPixels > 0 {
        BelowScale(j, xPixels, width);
      }
    }
    x
  }

  /** floor(j * n / w) < n when j < w: nearest-neighbour sampling never steps
      past the last source row or column. */
  lemma BelowScale(j: nat, n: nat, w: nat)
    requires j < w && n > 0
    ensures (j * n) / w < n
  {
    assert j * n < w * n by {
      MultiplyStrict(j, w, n);
    }
  }

  lemma MultiplyStrict(a: nat, b: nat, n: nat)
    requires a < b && n > 0
    ensures a * n < b * n
  {
  }

  /** Index into the image buffer read for bitmap row i, column j:
      Start + x + z * xPixels with Start = 0. */
  function SourceIndex(i: nat, j: nat, xPixels: nat, yPixels: nat, width: nat, height: nat): (r: nat)
    requires 0 < width && 0 < height
    requires i < height && j < width
    requires xPixels >= 1 && yPixels >= 1
    ensures r < xPixels * yPixels
  {
    var x := SampleColumn(j, xPixels, width);
    var z := SampleColumn(i, yPixels, height);
    RowMajorInBounds(x, z, xPixels, yPixels);
    x + z * xPixels
  }

  /** A column below xPixels and a row below yPixels address the buffer inside
      its xPixels * yPixels extent. */
  lemma RowMajorInBounds(x: nat, z: nat, xPixels: nat, yPixels: nat)
    requires x < xPixels && z < yPixels
    ensures x + z * xPixels < xPixels * yPixels
  {
    assert z * xPixels <= (yPixels - 1) * xPixels by {
      MultiplyMonotone(z, yPixels - 1, xPixels);
    }
    assert (yPixels - 1) * xPixels == xPixels * yPixels - xPixels;
  }

  lemma MultiplyMonotone(a: nat, b: nat, n: nat)
    requires a <= b
    ensures a * n <= b * n
  {
  }

  /** Row i, column j of a row-major bitmap of the given width. */
  lemma RowMajorSplit(i: nat, j: nat, width: nat)
    requires j < width
    ensures (j + i * width) / width == i && (j + i * width) % width == j
  {
    var n := j + i * width;
    var q := n / width;
    var r := n % width;
    assert n == q * width + r && 0 <= r < width;
    if q > i {
      MultiplyMonotone(i + 1, q, width);
      assert false;
    }
    if q < i {
      MultiplyMonotone(q + 1, i, width);
      assert false;
    }
  }

  /** The byte PaintImage writes at bitmap row i, column j. */
  function BitmapByte(pixels: seq<int>, xPixels: nat, yPixels: nat, maxValue: int, minValue: int,
                      i: nat, j: nat): (r: int)
    requires xPixels >= 1 && yPixels >= 1 && xPixels * yPixels <= |pixels|
    requires maxValue != minValue
    requires i < BitmapHeight && j < BitmapWidth
    ensures 0 <= r < Colors
  {
    PaletteByte(pixels[SourceIndex(i, j, xPixels, yPixels, BitmapWidth, BitmapHeight)],
                minValue, maxValue)
  }

  /** The bitmap PaintImage hands to StretchDIBits: one palette byte per
      position j + i * BitmapWidth, sampled from the image buffer. */
  function PaintBitmap(pixels: seq<int>, xPixels: nat, yPixels: nat, maxValue: int, minValue: int)
    : (bytes: seq<int>)
    requires xPixels >= 1 && yPixels >= 1 && xPixels * yPixels <= |pixels|
    requires maxValue != minValue
    ensures |bytes| == BitmapWidth * BitmapHeight
    ensures forall k :: 0 <= k < |bytes| ==> 0 <= bytes[k] < Colors
    ensures forall i, j :: 0 <= i < BitmapHeight && 0 <= j < BitmapWidth ==>
              bytes[j + i * BitmapWidth] == BitmapByte(pixels, xPixels, yPixels, maxValue, minValue, i, j)
  {
    var w, h := BitmapWidth, BitmapHeight;
    BitmapSize();
    var bytes := seq(w * h, k requires 0 <= k < w * h =>
                   BitmapByte(pixels, xPixels, yPixels, maxValue, minValue, k / w, k % w));
    assert forall i, j :: 0 <= i < h && 0 <= j < w ==>
             bytes[j + i * w] == BitmapByte(pixels, xPixels, yPixels, maxValue, minValue, i, j) by {
      forall i, j | 0 <= i < h && 0 <= j < w
        ensures bytes[j + i * w] == BitmapByte(pixels, xPixels, yPixels, maxValue, minValue, i, j)
      {
        RowMajorSplit(i, j, w);
        RowMajorInBounds(j, i, w, h);
      }
    }
    bytes
  }
}

=== FILE: postprocess.dfy ===
/** The post-processing example: ten frames are fetched into one multi-frame
    buffer, then averaged twice by the driver with two different filters.
    What the repository itself decides is the buffer sizing and where each
    frame is written.
 */
module PostProcess {
  import opened Driver
  import opened Buffers

  const NumImages: nat := 10
  const RecursiveFilter: int := 5
  const FrameAveragingFilter: int := 6
  const FrameAveragingFactor: int := 4
  const RecursiveFactor: int := 4

  /** Frame size and total size of each of the three buffers, in elements. */
  datatype Sizes = Sizes(frame: nat, total: nat)

  /** Buffer sizing: a buffer holds NumImages frames of X*Y pixels, and every
      frame slot lies inside it. */
  function BufferSizes(xPixels: nat, yPixels: nat): (s: Sizes)
    ensures s.frame == xPixels * yPixels
    ensures forall i :: 0 <= i < NumImages ==> i * s.frame + s.frame <= s.total
    ensures s.total == NumImages * s.frame
  {
    var frame := xPixels * yPixels;
    assert forall i :: 0 <= i < NumImages ==> i * frame + frame <= NumImages * frame by {
      forall i | 0 <= i < NumImages
        ensures i * frame + frame <= NumImages * frame
      {
        SlotFits(i, frame);
      }
    }
    Sizes(frame, NumImages * frame)
  }

  lemma SlotFits(i: nat, size: nat)
    requires i < NumImages
    ensures i * size + size == (i + 1) * size <= NumImages * size
  {
    assert i * size + size == (i + 1) * size;
    assert (i + 1) * size <= NumImages * size by {
      assert NumImages * size - (i + 1) * size == (NumImages - (i + 1)) * size;
    }
  }

  /** The buffer after the driver writes `pixels` at `offset`: that slot holds
      the frame and every other element is kept. */
  function WriteFrame(buffer: seq<int>, offset: nat, pixels: seq<int>): (r: seq<int>)
    requires offset + |pixels| <= |buffer|
    ensures |r| == |buffer|
    ensures r[..offset] == buffer[..offset]
    ensures r[..offset + |pixels|] == buffer[..offset] + pixels
    ensures forall k :: 0 <= k < |r| && !(offset <= k < offset + |pixels|) ==> r[k] == buffer[k]
  {
    var r := buffer[..offset] + pixels + buffer[offset + |pixels|..];
    assert r[..offset + |pixels|] == buffer[..offset] + pixels;
    r
  }

  /** One GetMostRecentImage call: its return code and the frame the driver
      writes at the current offset. */
  datatype Grab = Grab(ret: Ret, pixels: seq<int>)

  /** The frames of the successful calls, one after the other. */
  function Received(grabs: seq<Grab>): seq<int>
  {
    if grabs == [] then []
    else
      var last := grabs[|grabs| - 1];
      Received(grabs[..|grabs| - 1]) + (if last.ret == Success then last.pixels else [])
  }

  /** Number of successful calls. */
  function Successes(grabs: seq<Grab>): nat
  {
    if grabs == [] then 0
    else Successes(grabs[..|grabs| - 1]) + (if grabs[|grabs| - 1].ret == Success then 1 else 0)
  }

  /** When every frame has `size` pixels, the received data fill exactly one
      slot per successful call. */
  lemma {:induction false} ReceivedLength(grabs: seq<Grab>, size: nat)
    requires forall k :: 0 <= k < |grabs| ==> |grabs[k].pixels| == size
    ensures |Received(grabs)| == size * Successes(grabs)
    ensures Successes(grabs) <= |grabs|
    decreases |grabs|
  {
    if grabs != [] {
      ReceivedLength(grabs[..|grabs| - 1], size);
    }
  }

  /** The acquisition loop.  Each pass fetches the most recent frame into the
      slot at `offset`; the offset moves one frame on only when the fetch
      succeeded, so a failed frame's slot is overwritten by the next one.
      `initial` is the uninitialised content of the input buffer. */
  method AcquireFrames(size: nat, initial: seq<int>, grabs: seq<Grab>)
    returns (input: seq<int>, offset: nat)
    requires |initial| == NumImages * size
    requires |grabs| == NumImages
    requires forall k :: 0 <= k < |grabs| ==> |grabs[k].pixels| == size
    ensures |input| == |initial|
    ensures offset == size * Successes(grabs) && offset <= |input|
    ensures input[..offset] == Received(grabs)
    ensures forall k :: offset + size <= k < |input| ==> input[k] == initial[k]
  {
    input := initial;
    offset := 0;
    var i := 0;
    while i < NumImages
      invariant 0 <= i <= NumImages
      invariant |input| == |initial|
      invariant offset <= i * size
      invariant offset <= |input|
      invariant input[..offset] == Received(grabs[..i])
      invariant forall k :: offset + size <= k < |input| ==> input[k] == initial[k]
    {
      SlotFits(i, size);
      var g := grabs[i];
      input := WriteFrame(input, offset, g.pixels);
      assert grabs[..i + 1][..i] == grabs[..i];
      if g.ret == Success {
        offset := offset + size;
      }
      i := i + 1;
    }
    assert grabs[..NumImages] == grabs;
    ReceivedLength(grabs, size);
  }

  /** Three equal allocations add three blocks, three frees remove three. */
  lemma ThreeBlocks(n: nat)
    ensures NetBlocks([Malloc(n), Malloc(n), Malloc(n)]) == 3
    ensures NetBlocks([Free(n), Free(n), Free(n)]) == -3
  {
    var m, f := Malloc(n), Free(n);
    assert NetBlocks([m]) == 1 && NetBlocks([f]) == -1;
    NetBlocksAppend([m], [m]);
    NetBlocksAppend([m, m], [m]);
    NetBlocksAppend([f], [f]);
    NetBlocksAppend([f, f], [f]);
    assert [m] + [m] == [m, m] && [m, m] + [m] == [m, m, m];
    assert [f] + [f] == [f, f] && [f, f] + [f] == [f, f, f];
  }

  /** Which buffer a filter writes its result to. */
  datatype Output = FirstOutput | SecondOutput

  /** One PostProcessDataAveraging call: where its input starts in the input
      buffer, its output buffer and its scalar arguments. */
  datatype FilterCall = FilterCall(inputStart: nat, output: Output, dataSize: nat, numImages: nat,
                                   filter: int, yPixels: nat, xPixels: nat,
                                   averagingFactor: int, recursiveFactor: int)

  /** What the example leaves behind. */
  datatype Run = Run(input: seq<int>, offset: nat, filters: seq<FilterCall>, events: seq<MemEvent>)

  /** The example from buffer sizing to the final frees.  The three buffers are
      allocated with the same size; the input pointer is put back to the start
      before both filters run, and all three buffers are freed at the end. */
  method PostProcessFrames(xPixels: nat, yPixels: nat, initial: seq<int>, grabs: seq<Grab>)
    returns (r: Run)
    requires |initial| == NumImages * (xPixels * yPixels)
    requires |grabs| == NumImages
    requires forall k :: 0 <= k < |grabs| ==> |grabs[k].pixels| == xPixels * yPixels
    ensures r.offset <= |r.input| == NumImages * (xPixels * yPixels)
    ensures r.input[..r.offset] == Received(grabs)
    ensures |r.filters| == 2
    ensures r.filters[0].filter == RecursiveFilter && r.filters[1].filter == FrameAveragingFilter
    ensures r.filters[0].output != r.filters[1].output
    ensures r.filters[1] == r.filters[0].(filter := FrameAveragingFilter, output := r.filters[1].output)
    ensures forall c :: c in r.filters ==>
              c.inputStart == 0 && c.inputStart + c.dataSize == |r.input| && c.numImages == NumImages
    ensures NetBlocks(r.events) == 0
    ensures forall e :: e in r.events ==> e.size == |r.input|
    ensures var n := |r.input|;
            r.events == [Malloc(n), Malloc(n), Malloc(n), Free(n), Free(n), Free(n)]
  {
    var sizes := BufferSizes(xPixels, yPixels);
    var allocations := [Malloc(sizes.total), Malloc(sizes.total), Malloc(sizes.total)];
    var input, offset := AcquireFrames(sizes.frame, initial, grabs);
    var start := 0;
    var recursive := FilterCall(start, FirstOutput, sizes.total, NumImages, RecursiveFilter,
                                yPixels, xPixels, FrameAveragingFactor, RecursiveFactor);
    var averaging := FilterCall(start, SecondOutput, sizes.total, NumImages, FrameAveragingFilter,
                                yPixels, xPixels, FrameAveragingFactor, RecursiveFactor);
    var frees := [Free(sizes.total), Free(sizes.total), Free(sizes.total)];
    NetBlocksAppend(allocations, frees);
    ThreeBlocks(sizes.total);
    r := Run(input, offset, [recursive, averaging], allocations + frees);
  }
}

=== FILE: startup.dfy ===
/** Start-up and shut-down in WinMain, shared by all the GUI examples: the
    checked initialisation calls and the error text they accumulate, the
    choice of the fastest horizontal readout speed, and the calls gated on the
    capability bits the driver reports.
 */
module Startup {
  import opened Driver
  import opened Buffers

  /** The initialisation calls whose return code WinMain checks, in call order. */
  datatype Step =
    | InitializeStep
    | GetCapabilitiesStep
    | GetHeadModelStep
    | GetDetectorStep
    | SetAcquisitionModeStep
    | SetReadModeStep
    | SetVSSpeedStep
    | GetNumberADChannelsStep
    | SetADChannelStep
    | SetHSSpeedStep
    | SetBaselineClampStep

  /** The line WinMain appends to the error text when a step fails. */
  function ErrorLine(s: Step): (line: string)
    ensures |line| > 0 && line[|line| - 1] == '\n'
  {
    match s
    case InitializeStep => "Initialize Error\n"
    case GetCapabilitiesStep => "Get Andor Capabilities information Error\n"
    case GetHeadModelStep => "Get Head Model information Error\n"
    case GetDetectorStep => "Get Detector information Error\n"
    case SetAcquisitionModeStep => "Set Acquisition Mode Error\n"
    case SetReadModeStep => "Set Read Mode Error\n"
    case SetVSSpeedStep => "Set Vertical Speed Error\n"
    case GetNumberADChannelsStep => "Get number AD Channel Error\n"
    case SetADChannelStep => "Set AD Channel Error\n"
    case SetHSSpeedStep => "Set Horizontal Speed Error\n"
    case SetBaselineClampStep => "Set Baseline Clamp Error\n"
  }

  /** A single line of text: non-empty, and its only newline is the last character. */
  ghost predicate SingleLine(line: string)
  {
    && |line| > 0
    && line[|line| - 1] == '\n'
    && forall k :: 0 <= k < |line| - 1 ==> line[k] != '\n'
  }

  /** Every error line is a single line. */
  lemma ErrorLineSingle(s: Step)
    ensures SingleLine(ErrorLine(s))
  {
    if s.InitializeStep? || s.GetCapabilitiesStep? || s.GetHeadModelStep? {
      EarlyLinesSingle(s);
    } else if s.GetDetectorStep? || s.SetAcquisitionModeStep? || s.SetReadModeStep? {
      ModeLinesSingle(s);
    } else if s.SetVSSpeedStep? || s.GetNumberADChannelsStep? || s.SetADChannelStep? {
      ChannelLinesSingle(s);
    } else {
      LateLinesSingle(s);
    }
  }

  lemma EarlyLinesSingle(s: Step)
    requires s.InitializeStep? || s.GetCapabilitiesStep? || s.GetHeadModelStep?
    ensures SingleLine(ErrorLine(s))
  {
  }

  lemma ModeLinesSingle(s: Step)
    requires s.GetDetectorStep? || s.SetAcquisitionModeStep? || s.SetReadModeStep?
    ensures SingleLine(ErrorLine(s))
  {
  }

  lemma ChannelLinesSingle(s: Step)
    requires s.SetVSSpeedStep? || s.GetNumberADChannelsStep? || s.SetADChannelStep?
    ensures SingleLine(ErrorLine(s))
  {
  }

  lemma LateLinesSingle(s: Step)
    requires s.SetHSSpeedStep? || s.SetBaselineClampStep?
    ensures SingleLine(ErrorLine(s))
  {
  }

  /** The first line of the error text. */
  const ErrorHeader: string := "Initialization errors:\n"

  /** The capability bits of `caps.ulSetFunctions` that WinMain tests. */
  datatype SetFunction = BaselineClamp | Temperature | OtherSetFunction(bit: nat)

  /** The ten checked calls WinMain makes whatever the camera offers, in call order. */
  const UnconditionalSteps: seq<Step> :=
    [InitializeStep, GetCapabilitiesStep, GetHeadModelStep, GetDetectorStep,
     SetAcquisitionModeStep, SetReadModeStep, SetVSSpeedStep, GetNumberADChannelsStep,
     SetADChannelStep, SetHSSpeedStep]

  /** The checked steps in call order; the baseline clamp is set last, and
      only when the camera offers it. */
  function CheckedSteps(caps: set<SetFunction>): (steps: seq<Step>)
    ensures |steps| == 10 + (if BaselineClamp in caps then 1 else 0)
    ensures steps[..10] == UnconditionalSteps
    ensures BaselineClamp in caps ==> steps[10] == SetBaselineClampStep
    ensures SetBaselineClampStep in steps <==> BaselineClamp in caps
  {
    UnconditionalSteps + (if BaselineClamp in caps then [SetBaselineClampStep] else [])
  }

  /** The line a step contributes: its error line if it failed, nothing otherwise. */
  function FailedLine(s: Step, failed: set<Step>): string
  {
    if s in failed then ErrorLine(s) else ""
  }

  /** The error lines of the failed steps among `steps`, in call order. */
  function ErrorLines(steps: seq<Step>, failed: set<Step>): string
  {
    if steps == [] then ""
    else ErrorLines(steps[..|steps| - 1], failed) + FailedLine(steps[|steps| - 1], failed)
  }

  ghost predicate AnyFailed(steps: seq<Step>, failed: set<Step>)
  {
    exists i :: 0 <= i < |steps| && steps[i] in failed
  }

  /** There are no error lines exactly when no step failed. */
  lemma {:induction false} ErrorLinesEmpty(steps: seq<Step>, failed: set<Step>)
    ensures ErrorLines(steps, failed) == "" <==> !AnyFailed(steps, failed)
    decreases |steps|
  {
    if steps != [] {
      var init := steps[..|steps| - 1];
      ErrorLinesEmpty(init, failed);
      if AnyFailed(init, failed) {
        var i :| 0 <= i < |init| && init[i] in failed;
        assert steps[i] in failed;
      }
      if AnyFailed(steps, failed) && !AnyFailed(init, failed) {
        var i :| 0 <= i < |steps| && steps[i] in failed;
        assert i == |steps| - 1;
      }
    }
  }

  /** One more checked call: its line is appended after the earlier ones, and
      the failure flag is set by it or by an earlier one. */
  lemma ErrorStep(init: seq<Step>, s: Step, failed: set<Step>)
    ensures ErrorLines(init + [s], failed) == ErrorLines(init, failed) + FailedLine(s, failed)
    ensures AnyFailed(init + [s], failed) <==> AnyFailed(init, failed) || s in failed
  {
    var steps := init + [s];
    assert steps[..|steps| - 1] == init;
    if AnyFailed(init, failed) {
      var k :| 0 <= k < |init| && init[k] in failed;
      assert steps[k] in failed;
    }
    if s in failed {
      assert steps[|init|] in failed;
    }
    if AnyFailed(steps, failed) && s !in failed {
      var k :| 0 <= k < |steps| && steps[k] in failed;
      assert init[k] in failed;
    }
  }

  /** The length of each step's error line, as a number. */
  function LineLength(s: Step): nat
  {
    match s
    case InitializeStep => 17
    case GetCapabilitiesStep => 41
    case GetHeadModelStep => 33
    case GetDetectorStep => 31
    case SetAcquisitionModeStep => 27
    case SetReadModeStep => 20
    case SetVSSpeedStep => 25
    case GetNumberADChannelsStep => 28
    case SetADChannelStep => 21
    case SetHSSpeedStep => 27
    case SetBaselineClampStep => 25
  }

  lemma LineLengthCorrect(s: Step)
    ensures LineLength(s) == |ErrorLine(s)|
  {
  }

  /** The length of the error lines grows by the length of each new failed line. */
  lemma ErrorLinesLength(steps: seq<Step>, failed: set<Step>)
    requires steps != []
    ensures var last := steps[|steps| - 1];
            |ErrorLines(steps, failed)|
            == |ErrorLines(steps[..|steps| - 1], failed)| + (if last in failed then LineLength(last) else 0)
  {
    LineLengthCorrect(steps[|steps| - 1]);
  }

  /** The summed line lengths of `steps`. */
  function LinesLength(steps: seq<Step>): nat
  {
    if steps == [] then 0 else LinesLength(steps[..|steps| - 1]) + LineLength(steps[|steps| - 1])
  }

  /** When every step failed, the error lines are as long as all their lines together. */
  lemma {:induction false} AllFailedLength(steps: seq<Step>, failed: set<Step>)
    requires forall i :: 0 <= i < |steps| ==> steps[i] in failed
    ensures |ErrorLines(steps, failed)| == LinesLength(steps)
    decreases |steps|
  {
    if steps != [] {
      AllFailedLength(steps[..|steps| - 1], failed);
      ErrorLinesLength(steps, failed);
    }
  }

  /** One more step adds its line length. */
  lemma LinesLengthAppend(init: seq<Step>, s: Step)
    ensures LinesLength(init + [s]) == LinesLength(init) + LineLength(s)
  {
    assert (init + [s])[..|init|] == init;
  }

  /** The ten unconditional lines are 270 characters long together. */
  lemma UnconditionalLength()
    ensures LinesLength(UnconditionalSteps) == 270
  {
    var p: seq<Step> := [];
    LinesLengthAppend(p, InitializeStep);
    p := p + [InitializeStep];
    LinesLengthAppend(p, GetCapabilitiesStep);
    p := p + [GetCapabilitiesStep];
    LinesLengthAppend(p, GetHeadModelStep);
    p := p + [GetHeadModelStep];
    LinesLengthAppend(p, GetDetectorStep);
    p := p + [GetDetectorStep];
    LinesLengthAppend(p, SetAcquisitionModeStep);
    p := p + [SetAcquisitionModeStep];
    LinesLengthAppend(p, SetReadModeStep);
    p := p + [SetReadModeStep];
    LinesLengthAppend(p, SetVSSpeedStep);
    p := p + [SetVSSpeedStep];
    LinesLengthAppend(p, GetNumberADChannelsStep);
    p := p + [GetNumberADChannelsStep];
    LinesLengthAppend(p, SetADChannelStep);
    p := p + [SetADChannelStep];
    LinesLengthAppend(p, SetHSSpeedStep);
    p := p + [SetHSSpeedStep];
    assert p == UnconditionalSteps;
  }

  /** WinMain builds the text in `char aBuffer[256]`, which holds at most 255
      characters before the terminating NUL.  When the ten unconditional calls
      all fail, the text is 293 characters long, whatever the camera offers. */
  lemma ErrorTextOverflows(caps: set<SetFunction>, failed: set<Step>)
    requires forall i :: 0 <= i < |UnconditionalSteps| ==> UnconditionalSteps[i] in failed
    ensures |ErrorHeader + ErrorLines(UnconditionalSteps, failed)| == 293
    ensures |ErrorHeader + ErrorLines(CheckedSteps(caps), failed)| > 255
  {
    var u := UnconditionalSteps;
    AllFailedLength(u, failed);
    UnconditionalLength();
    var steps := CheckedSteps(caps);
    if BaselineClamp in caps {
      assert steps == u + [SetBaselineClampStep];
      ErrorLinesLength(steps, failed);
      assert steps[..10] == u;
    } else {
      assert steps == u;
    }
  }

  /** A speed table: for each AD channel, the horizontal speeds GetHSSpeed
      reports for indices 0 .. GetNumberHSSpeeds - 1. */
  predicate ValidPair(speeds: seq<seq<real>>, ad: int, hs: int)
  {
    0 <= ad < |speeds| && 0 <= hs < |speeds[ad]|
  }

  /** (a, s) is enumerated before (ad, hs): lower AD channel first, then lower
      speed index. */
  predicate Before(a: int, s: int, ad: int, hs: int)
  {
    a < ad || (a == ad && s < hs)
  }

  /** (ad, hs) is the first fastest pair of the table. */
  ghost predicate FirstFastest(speeds: seq<seq<real>>, ad: int, hs: int)
  {
    && ValidPair(speeds, ad, hs)
    && (forall a, s :: ValidPair(speeds, a, s) ==> speeds[a][s] <= speeds[ad][hs])
    && (forall a, s :: ValidPair(speeds, a, s) && Before(a, s, ad, hs) ==> speeds[a][s] < speeds[ad][hs])
  }

  ghost predicate SomePositive(speeds: seq<seq<real>>)
  {
    exists a, s :: ValidPair(speeds, a, s) && speeds[a][s] > 0.0
  }

  /** The fastest-horizontal-speed search of WinMain.  `countOk` says whether
      GetNumberADChannels succeeded.  Starting from speed 0 and indices (0, 0),
      a strictly faster speed replaces the current choice. */
  method SelectHorizontalSpeed(countOk: bool, speeds: seq<seq<real>>)
    returns (adNumber: nat, hsNumber: nat)
    ensures !countOk || !SomePositive(speeds) ==> adNumber == 0 && hsNumber == 0
    ensures countOk && SomePositive(speeds) ==>
              FirstFastest(speeds, adNumber, hsNumber) && speeds[adNumber][hsNumber] > 0.0
  {
    var best: real := 0.0;
    adNumber, hsNumber := 0, 0;
    if !countOk {
      return;
    }
    var ad := 0;
    while ad < |speeds|
      invariant 0 <= ad <= |speeds|
      invariant best >= 0.0
      invariant best == 0.0 ==> adNumber == 0 && hsNumber == 0
      invariant best == 0.0 ==> forall a, s :: ValidPair(speeds, a, s) && a < ad ==> speeds[a][s] <= 0.0
      invariant best > 0.0 ==> ValidPair(speeds, adNumber, hsNumber) && adNumber < ad
                               && speeds[adNumber][hsNumber] == best
      invariant forall a, s :: ValidPair(speeds, a, s) && a < ad ==> speeds[a][s] <= best
      invariant forall a, s :: ValidPair(speeds, a, s) && Before(a, s, adNumber, hsNumber) ==> speeds[a][s] < best
    {
      var hs := 0;
      while hs < |speeds[ad]|
        invariant 0 <= hs <= |speeds[ad]|
        invariant best >= 0.0
        invariant best == 0.0 ==> adNumber == 0 && hsNumber == 0
        invariant best == 0.0 ==> forall a, s :: ValidPair(speeds, a, s) && Before(a, s, ad, hs) ==> speeds[a][s] <= 0.0
        invariant best > 0.0 ==> ValidPair(speeds, adNumber, hsNumber) && Before(adNumber, hsNumber, ad, hs)
                                 && speeds[adNumber][hsNumber] == best
        invariant forall a, s :: ValidPair(speeds, a, s) && Before(a, s, ad, hs) ==> speeds[a][s] <= best
        invariant forall a, s :: ValidPair(speeds, a, s) && Before(a, s, adNumber, hsNumber) ==> speeds[a][s] < best
      {
        if speeds[ad][hs] > best {
          best := speeds[ad][hs];
          adNumber, hsNumber := ad, hs;
        }
        hs := hs + 1;
      }
      ad := ad + 1;
    }
    if SomePositive(speeds) {
      var a, s :| ValidPair(speeds, a, s) && speeds[a][s] > 0.0;
      assert best > 0.0;
    }
  }

  /** The first fastest pair is unique: the choice is determined by the table. */
  lemma FirstFastestUnique(speeds: seq<seq<real>>, ad: int, hs: int, ad': int, hs': int)
    requires FirstFastest(speeds, ad, hs) && FirstFastest(speeds, ad', hs')
    ensures ad == ad' && hs == hs'
  {
  }

  /** The error check after each initialisation call: every failed call sets
      `errorFlag` and appends its line to the text. */
  method ReportErrors(steps: seq<Step>, failed: set<Step>) returns (errorFlag: bool, text: string)
    ensures errorFlag <==> AnyFailed(steps, failed)
    ensures text == ErrorHeader + ErrorLines(steps, failed)
  {
    errorFlag := false;
    var lines: string := "";
    var i := 0;
    while i < |steps|
      invariant 0 <= i <= |steps|
      invariant errorFlag <==> AnyFailed(steps[..i], failed)
      invariant lines == ErrorLines(steps[..i], failed)
    {
      assert steps[..i + 1] == steps[..i] + [steps[i]];
      ErrorStep(steps[..i], steps[i], failed);
      if steps[i] in failed {
        lines := lines + ErrorLine(steps[i]);
        errorFlag := true;
      }
      i := i + 1;
    }
    text := ErrorHeader + lines;
    assert steps[..|steps|] == steps;
  }

  /** The error text differs from the bare header exactly when a call failed. */
  lemma ErrorTextShown(steps: seq<Step>, failed: set<Step>)
    ensures ErrorHeader + ErrorLines(steps, failed) != ErrorHeader <==> AnyFailed(steps, failed)
  {
    ErrorLinesEmpty(steps, failed);
    if ErrorHeader + ErrorLines(steps, failed) == ErrorHeader {
      assert |ErrorLines(steps, failed)| == 0;
    }
  }

  /** What the initialisation part of WinMain leaves behind. */
  datatype Initialised = Initialised(
    steps: seq<Step>,    // the checked calls made, in order
    errorFlag: bool,     // errorFlag
    text: string,        // the error text built in aBuffer
    showBox: bool,       // whether the error message box is shown
    adNumber: nat,       // ADnumber, passed to SetADChannel
    hsNumber: nat)       // HSnumber, passed to SetHSSpeed

  /** The initialisation part of WinMain.  `failed` is the set of checked calls
      whose return code is not DRV_SUCCESS, `caps` the bits of
      `caps.ulSetFunctions` as GetCapabilities left them (whether or not it
      succeeded) and `speeds` the horizontal speed table. */
  method Initialise(failed: set<Step>, caps: set<SetFunction>, speeds: seq<seq<real>>)
    returns (r: Initialised)
    ensures r.steps == CheckedSteps(caps)
    ensures r.errorFlag <==> AnyFailed(r.steps, failed)
    ensures r.text == ErrorHeader + ErrorLines(r.steps, failed)
    ensures r.showBox == r.errorFlag
    ensures r.errorFlag <==> r.text != ErrorHeader
    ensures GetNumberADChannelsStep in failed || !SomePositive(speeds) ==> r.adNumber == 0 && r.hsNumber == 0
    ensures GetNumberADChannelsStep !in failed && SomePositive(speeds) ==>
              FirstFastest(speeds, r.adNumber, r.hsNumber)
  {
    var steps := CheckedSteps(caps);
    var adNumber, hsNumber := SelectHorizontalSpeed(GetNumberADChannelsStep !in failed, speeds);
    var errorFlag, text := ReportErrors(steps, failed);
    ErrorTextShown(steps, failed);
    r := Initialised(steps, errorFlag, text, errorFlag, adNumber, hsNumber);
  }

  /** What WinMain does once the message loop ends: the driver calls made,
      the error boxes shown and the buffer freed. */
  datatype Closed = Closed(calls: seq<Call>, messages: seq<string>, freed: Freed)

  /** Shut-down: the cooler is switched off only when the camera offers
      temperature control, then the driver is shut down and the image buffer
      freed.  `coolerRet` and `shutDownRet` are what CoolerOFF and ShutDown
      return; each failure shows its own box. */
  function ShutDownSystem(caps: set<SetFunction>, coolerRet: Ret, shutDownRet: Ret, buffer: Buffer)
    : (r: Closed)
    ensures CoolerOff in r.calls <==> Temperature in caps
    ensures CountCalls(r.calls, CoolerOff) == (if Temperature in caps then 1 else 0)
    ensures |r.calls| == 1 + CountCalls(r.calls, CoolerOff)
    ensures |r.calls| > 0 && r.calls[|r.calls| - 1] == ShutDown && CountCalls(r.calls, ShutDown) == 1
    ensures "Error switching cooler off" in r.messages <==> Temperature in caps && coolerRet == Failure
    ensures "Error shutting down" in r.messages <==> shutDownRet == Failure
    ensures r.freed.buffer == Null
    ensures NetBlocks(r.freed.events) + Blocks(buffer) == 0
  {
    var cooler := if Temperature in caps then [CoolerOff] else [];
    var coolerMessages := if Temperature in caps && coolerRet == Failure then ["Error switching cooler off"] else [];
    var shutMessages := if shutDownRet == Failure then ["Error shutting down"] else [];
    CountCallsAbsent(cooler, ShutDown);
    CountCallsAppend(cooler, [ShutDown], ShutDown);
    CountCallsAppend(cooler, [ShutDown], CoolerOff);
    CountCallsAbsent([ShutDown], CoolerOff);
    assert CountCalls(cooler, CoolerOff) == |cooler| by {
      if Temperature in caps {
        CountCallsAbsent([], CoolerOff);
        assert cooler[1..] == [];
      }
    }
    Closed(cooler + [ShutDown], coolerMessages + shutMessages, FreeBuffers(buffer))
  }
}
